=== FILE: README.md ===
# analisisdataset engine in Dafny

`analisisdataset.py` and `analisis.py` are two near-identical Tkinter front
ends to one `DatasetApp` engine. This project models that engine once, as
pure functions over an immutable session.

The session holds:

- a table of labelled numeric columns, all of one length;
- an optional target (class label) vector of the same length;
- three result caches: the FDR ranking, the Pearson ranking and the
  cross-correlation vector.

The commands are:

- load a table;
- select a target column;
- drop a column;
- drop a row;
- compute the Fisher Discriminant Ratio (FDR) ranking;
- compute the Pearson redundancy ranking;
- compute the cross-correlation vector;
- reset.

Each command returns the new session together with a status. The status says
whether the command was applied, ignored (a cancelled dialog), warned
about missing data, or rejected with an error. A command that changed the
session then redraws the tables, and that redraw can fail after the change
was made (`DisplayFailed`).

Modules, one per concern:

- `Common` (`common.dfy`): `Option`, removal of one element from a sequence,
  and the shape of an absolute correlation matrix.
- `ColumnKeys` (`keys.dfy`): column labels (`Int(n)` for a table read without
  a header row, `Name(s)` for header names) and the way the typed token is
  resolved into a label. This follows Python's `int()` first and the
  `strip()`ped text otherwise.
- `DataTable` (`table.dfy`): the table, the target vector and the three
  editing operations, each with its error case.
- `Ranking` (`ranking.dfy`): `(feature, score)` lists and Python's stable
  `sorted(..., reverse=True)` on scores, as an insertion sort.
- `Fisher` (`fisher.dfy`): classes (`np.unique`), per-class mean and
  population variance plus `1e-8`, the sum over ordered class pairs, and the
  ranking.
- `Pearson` (`pearson.dfy`): the threshold scan over column pairs `i < j`,
  the keep-the-maximum dictionary with insertion order, and the ranking.
- `CrossCorrelation` (`crosscorr.dfy`): zeroing the diagonal and summing
  down each column.
- `Session` (`session.dfy`): the `DatasetApp` commands as a state machine.

Numbers are exact `real`s, so `1e-8` is exactly `1/100000000`.

The correlation matrix `np.abs(np.corrcoef(df, rowvar=False))` is an input.
It is a square, symmetric matrix with no negative entries, one row per
current column.

Four behaviours of the code are easy to miss:

- **One column or one row, Pearson and cross-correlation.** With exactly one
  column, `np.corrcoef` returns a 0-dimensional scalar, not a 1×1 matrix.
  Up to numpy 2.1, `np.cov` does not transpose a single-row input, so a
  table of exactly one row also gives a scalar (`Session.ScalarCorrelation`).
  - `compute_pearson_coef` then fails on `corr.shape[0]`.
  - `compute_cross_correlation` fails on `np.fill_diagonal`.
  - Both exceptions are caught and shown as an error dialog, and the session
    is unchanged.
  - The model reports this as `CorrelationUndefined` and leaves the session
    unchanged. The pure ranking `Pearson.PearsonRanking` is still empty for
    fewer than two columns (`Pearson.PearsonRankingEmpty`).
  - A table of no rows gives an all-NaN matrix, which is outside the model
    (see "## Left out").
- **Separators are not whitespace to `int()`.** `str.strip` removes the
  ASCII information separators U+001C–U+001F, but `int()` does not skip
  them. A number typed next to one is not read as an integer: its key is
  the number's digits as a name (`ColumnKeys.ResolveSeparatorPadded`).
- **Failed load.** `load_csv` calls `resetAll` before `pd.read_csv`. A load
  that fails therefore leaves an empty session, not the previous one
  (`Session.Load`).
- **Stale cross-correlation.** Editing commands keep the result caches.
  `display_dataframe` pairs the current column names with the stored
  cross-correlation vector, and pandas refuses to build that table when the
  two lengths differ.
  - After a target selection or a column drop, the edit is made and the
    redraw fails with an error dialog (`Session.StaleCrossAfterColumnEdit`).
  - Every later row drop, FDR or Pearson computation is also made and then
    fails to redraw, until the cross-correlation is computed again or the
    session is reset (`Session.StaleCrossPersists`).
  - The model reports these outcomes as `DisplayFailed`.

## Model

| member | source | states |
|---|---|---|
| `ColumnKeys.ResolveKey` | analisisdataset.py:100-107 | A cancelled, empty or whitespace-only answer gives no key. A token `int()` accepts gives `Int` of the value `int()` reads. Any other token gives its stripped text, which is non-empty and has no surrounding whitespace, and `int()` rejected the answer. |
| `ColumnKeys.Strip` | analisisdataset.py:100-107 | The result has no whitespace at either end, is no longer than the input, and is empty exactly when the input is all whitespace (the blank-answer test). |
| `ColumnKeys.StripPadded` | analisisdataset.py:107 | Any whitespace around a trimmed token is exactly what is removed: the token comes back unchanged. |
| `ColumnKeys.ParseShowRoundTrip` | analisisdataset.py:104-105 | `int()` reads back every integer `str()` writes, so the parser is the inverse of the printer on all integers. |
| `ColumnKeys.ParseIntIgnoresSpace` | analisisdataset.py:104-105 | Whitespace that `int()` skips (every `str.isspace` character except U+001C–U+001F) never changes what `int()` reads from the token it surrounds, whether a number or a `ValueError`. |
| `ColumnKeys.ResolvePaddedInt` | analisisdataset.py:104-105 | An integer typed with whitespace `int()` skips around it resolves to `Int` of that integer. |
| `ColumnKeys.ResolvePaddedName` | analisisdataset.py:106-107 | A non-integer name typed with any whitespace around it resolves to exactly that name. |
| `ColumnKeys.ResolveSeparatorPadded` | analisisdataset.py:104-107 | An integer typed with whitespace around it that includes a U+001C–U+001F separator is rejected by `int()` and resolves to the name spelled by its digits. |
| `ColumnKeys.StripIdempotent` | analisisdataset.py:107 | Stripping an already stripped token changes nothing. |
| `DataTable.PositionOfFound` | analisisdataset.py:109 | The column lookup finds a column exactly when some current column carries the label, which is the `column_key not in self.df.columns` test. |
| `DataTable.SelectTarget` | analisisdataset.py:109-114 | Fails, with `UnknownColumn(k)`, exactly when no column has label `k`. On success: the targets become that column's data (any old targets are discarded); the column leaves the table; the other columns keep their labels, data and order; the row count is unchanged; the table stays consistent. |
| `DataTable.DropColumn` | analisisdataset.py:184-188 | Fails exactly when no column has label `k`. On success: exactly that column is removed; the other labels keep their order; the targets are untouched; the table stays consistent. |
| `DataTable.DropColumnKeepsOthers` | analisisdataset.py:188 | After a column drop, every other label still names the same column with the same data. Integer labels are not renumbered. |
| `DataTable.DropRow` | analisis.py:91-97 | Fails, with `RowNotFound(i)`, exactly when `i` is outside `[0, rows)`, negative indices included. On success: row `i` leaves every column and the targets; labels are unchanged; all lengths become `rows - 1`. |
| `DataTable.DropRowRenumbers` | analisisdataset.py:160-164 | After a row drop, rows are renumbered from 0 in their old order. Rows before `i` keep their number, later ones move up by one, and their targets move with them. |
| `DataTable.Headerless` | analisisdataset.py:85-87 | A table read without a header row labels its columns `Int(0)`, `Int(1)`, and so on, and is consistent. |
| `DataTable.WithHeader` | analisisdataset.py:85-87 | A table read with a header row labels its columns with the header names, so every label is a name, and is consistent. |
| `DataTable.HeaderRejectsIntegerKeys` | analisisdataset.py:104-111 | In any consistent table whose labels are all header names, an integer key never matches, not even a header that spells that number; target selection and column drop both fail with `UnknownColumn`. |
| `DataTable.EditsKeepNamedOnly` | analisisdataset.py:109-188 | Target selection, column drop and row drop never introduce an integer label, so a table read with a header row keeps only names. |
| `Ranking.SortDesc` | analisisdataset.py:223 | The result is ordered by score from high to low and holds exactly the input entries (same multiset). For every score, the entries with that score keep their input order. |
| `Ranking.SortDescKeepsTies` | analisisdataset.py:223 | Two entries of equal score listed in some order by the sort appear in that order in the input. |
| `Ranking.SortDescDistinct` | analisisdataset.py:223 | Sorting keeps features distinct. |
| `Fisher.Classes` | analisisdataset.py:199 | The classes are strictly increasing and are exactly the values that occur among the targets. |
| `Fisher.ClassRows` | analisisdataset.py:209 | A class selects at least one row exactly when it occurs among the targets, so every class from `np.unique` is non-empty. |
| `Fisher.ClassVariances` | analisisdataset.py:208-211 | There is one variance per class, and each is at least `1e-8`, so every denominator is positive. |
| `Fisher.Variance` | analisisdataset.py:211 | The population variance is never negative. |
| `Fisher.Ratio` | analisisdataset.py:216-218 | A pair's ratio is never negative, and is positive exactly when the two class means differ. |
| `Fisher.RatioSymmetric` | analisisdataset.py:213-218 | The ratio of `(i, j)` equals that of `(j, i)`. |
| `Fisher.OrderedIsTwiceUnordered` | analisisdataset.py:213-218 | The sum over ordered pairs `i != j` is exactly twice the sum over unordered pairs `i < j`. |
| `Fisher.PairScoreSign` | analisisdataset.py:213-220 | A feature's score is twice the unordered-pair sum. It is never negative, and is positive exactly when two classes have different means. |
| `Fisher.PairScoreTwoClasses` | analisisdataset.py:213-218 | With two classes the score is twice their single ratio. |
| `Fisher.OneTargetOneClass` | analisisdataset.py:199 | When every row has the same target, that target is the only class. |
| `Fisher.FeatureScore` | analisisdataset.py:204-220 | A feature score is twice the sum over unordered class pairs, is never negative, and is positive exactly when two class means differ. |
| `Fisher.FeatureScoreOneTarget` | analisisdataset.py:199-220 | When every row has the same target, every feature scores exactly 0. |
| `Fisher.FdrEntries` | analisisdataset.py:222-223 | There is one entry per current column, in column order. |
| `Fisher.FdrRanking` | analisisdataset.py:199-223 | The ranking lists every current column exactly once, with its own non-negative FDR score, from high to low; columns with equal scores keep their column order. |
| `Pearson.SelectedPairsMembers` | analisisdataset.py:254-258 | An entry is recorded exactly when some pair `a < b` with `corr[a][b] >= coef` involves its column and has its value. The diagonal never takes part. |
| `Pearson.SelectedPairsSound` | analisisdataset.py:254-258 | Every recorded entry comes from a pair `a < b` with `corr[a][b] >= coef` that involves its column and has its value. |
| `Pearson.SelectedPairsComplete` | analisisdataset.py:254-258 | Every pair `a < b` with `corr[a][b] >= coef` has both of its columns recorded with its value. |
| `Pearson.AbsorbNew` | analisisdataset.py:262-264 | A column seen for the first time is appended to the dictionary with its value, and the dictionary still describes the longer list of entries. |
| `Pearson.AbsorbKnown` | analisisdataset.py:262-264 | A column already in the dictionary keeps its place, and its value is replaced only by a strictly greater one. The dictionary still describes the longer list of entries. |
| `Pearson.Absorb` | analisisdataset.py:262-264 | One step grows the dictionary by one item exactly when no item has the entry's column, and the new item is the entry. Existing items keep their column and place, and change only to the entry, when its value is strictly greater. Afterwards the item for the entry's column holds at least its value. |
| `Pearson.MaxDict` | analisisdataset.py:261-264 | The dictionary has exactly one item per recorded column and none for any other column. Each item is a recorded entry holding the largest value recorded for its column. Items are in the order their columns were first recorded; updates keep an item's place. |
| `Pearson.PearsonRanking` | analisisdataset.py:250-267 | The ranking lists each column at most once, from high to low value. |
| `Pearson.PearsonRankingMembers` | analisisdataset.py:254-267 | A column is listed exactly when some pair of distinct columns reaching the threshold involves it. |
| `Pearson.PearsonRankingValues` | analisisdataset.py:254-264 | A listed column's value is attained by a qualifying pair involving it, and is at least every such pair's correlation. |
| `Pearson.PearsonRankingTies` | analisisdataset.py:254-267 | Columns with equal values are listed in the order the row-major scan first recorded them. |
| `Pearson.PearsonRankingEmpty` | analisisdataset.py:254-258 | When the threshold exceeds every off-diagonal correlation, nothing is listed. This includes fewer than two columns. |
| `Pearson.PearsonRankingAll` | analisisdataset.py:250-258 | With at least two columns and a threshold of zero or less, every column is listed. |
| `CrossCorrelation.CrossScores` | analisisdataset.py:234-236 | There is one entry per column. Entry `k` is the whole of column `k` minus its diagonal entry, so a column's self-correlation never counts. On an absolute correlation matrix no entry is negative. |
| `CrossCorrelation.CrossScoreByRow` | analisisdataset.py:236 | Because the matrix is symmetric, summing down column `k` equals summing along row `k`. |
| `CrossCorrelation.CrossScoreBounds` | analisisdataset.py:234-236 | Entry `k` is non-negative and at least every correlation of column `k` with another column. It is zero exactly when column `k` is uncorrelated with all the others. |
| `Session.Reset` | analisisdataset.py:274-279 | No table, no targets, and all three result caches empty. |
| `Session.Load` | analisisdataset.py:84-90 | A cancelled dialog changes nothing. A failed read leaves the reset session. A successful read leaves the new table, with no targets and no results, and its redraw succeeds. |
| `Session.SelectTargetCmd` | analisisdataset.py:92-118 | Warns exactly when nothing is loaded, and ignores a cancelled or blank answer. Rejects exactly the keys that name no column. Exactly when the key names a column does it move that column into the targets. Every outcome that does not change the session leaves it unchanged; the caches never change. The redraw fails exactly when the changed session cannot be displayed. |
| `Session.DropColumnCmd` | analisisdataset.py:169-192 | Silent when nothing is loaded or the answer is blank. Rejects unknown keys with the session unchanged. Exactly when the key names a column does it remove that column, keeping the targets and caches. The redraw fails exactly when the changed session cannot be displayed. |
| `Session.DropRowCmd` | analisis.py:87-100 | Silent when nothing is loaded or the dialog is cancelled. Rejects an index outside the rows with the session unchanged. Exactly when the index is in range does it remove that row from the table and the targets, keeping the caches. The redraw fails exactly when the changed session cannot be displayed. |
| `Session.ComputeFdrCmd` | analisisdataset.py:194-227 | Warns, changing nothing, exactly when there is no table or no targets. Otherwise it replaces only the FDR ranking. The redraw fails exactly when the session already held a stale cross-correlation vector. |
| `Session.ComputeCrossCmd` | analisisdataset.py:229-239 | Warns when nothing is loaded and reports an error for a table of one column or one row, both changing nothing. Otherwise it replaces only the cross-correlation vector, one entry per column, and the redraw always succeeds. |
| `Session.ComputePearsonCmd` | analisisdataset.py:241-272 | Warns when nothing is loaded, ignores a cancelled threshold, and reports an error for a table of one column or one row, all changing nothing. Exactly when a table is loaded, a threshold is given and the correlation is a matrix does it replace the Pearson ranking, and nothing else. The redraw fails exactly when the session already held a stale cross-correlation vector. |
| `Session.ResetIsInert` | analisisdataset.py:274-279 | After a reset, every command warns or is ignored and the session stays empty. |
| `Session.StaleCrossAfterColumnEdit` | analisisdataset.py:143-149 | With a displayable cross-correlation vector present, a target selection or column drop that changes the session always fails to redraw. |
| `Session.StaleCrossPersists` | analisisdataset.py:143-149 | Once the vector is stale, every row drop, FDR or Pearson computation that changes the session fails to redraw. A reset or a new cross-correlation makes the session displayable again. |
| `Session.NumericKeyOnHeaderTable` | analisisdataset.py:104-111 | In any session whose table has only header names, typing a number, with whitespace `int()` skips around it, is rejected with the session unchanged, by both target selection and column drop, even when a header spells that number. |
| `Session.NumericKeySelectsColumn` | analisisdataset.py:104-114 | In any session whose table has a column labelled by the number `n` (a table read without a header row), typing `n` with whitespace `int()` skips around it makes that column the targets, or drops exactly that column. |

## Left out

- GUI: windows, dialogs, the CSV options dialog, `set_text` and the text
  widgets. Of `display_dataframe` only whether it fails is modelled
  (`Session.Displayable`), not what it draws. The 4-decimal rounding and the
  `drop_duplicates` applied only when displaying results are also out.
- CSV reading (`pd.read_csv`): file I/O and pandas parsing. A successful load
  carries the table it produced. Renaming of repeated header names is not
  modelled; header names are assumed distinct.
- `np.corrcoef`: it needs square roots, so the absolute correlation matrix is
  a parameter. Constant columns, which give NaN entries, are not modelled.
  Neither is a table with no columns, for which the model takes the empty
  matrix, nor a table with no rows, whose matrix is all NaN.
- `Session.ComputeCrossCmd` and `Session.ComputePearsonCmd`: a one-row table
  is reported as `CorrelationUndefined`, which is what numpy up to 2.1 does.
  From numpy 2.2 a one-row table gives an all-NaN matrix instead, and the
  commands would go on with NaN values; that behaviour is not modelled.
- Floating point: all arithmetic is exact. Rounding in means, variances and
  ratios is not modelled.
- Non-numeric columns and other pandas/numpy exceptions caught by the
  handlers: every column is numeric.
- `int()` edge cases: digit-group underscores (`1_000`) and non-ASCII decimal
  digits are not accepted here. Such tokens resolve to names.
- `ColumnKeys.ResolveKey`: a name key is promised only that the whole typed
  answer fails `int()`, not that its stripped text does. A number typed next
  to an information separator becomes a name spelled with digits.
- `Session.DropRowCmd`: a cancelled row dialog is modelled as in `analisis.py`
  (a silent return). In `analisisdataset.py:159` the same case reaches
  `index.strip()` on `None`. That raises an exception, shown as an error
  dialog, and the session is equally unchanged.
- Widget clearing in `resetAll` (analisis.py:216-217) is display only.

=== FILE: common.dfy ===
/** Shared vocabulary of the model: an optional value (a cancelled dialog, a
    table that has not been loaded yet), removal of one element from a
    sequence (behind every row and column drop), and the shape of a square
    correlation matrix. */
module Common {

  datatype Option<T> = None | Some(value: T)

  /** `s` without its element at position `i`: the elements before `i` keep
      their positions, the ones after it move down by one, nothing else
      changes. */
  function RemoveAt<T>(s: seq<T>, i: nat): (r: seq<T>)
    requires i < |s|
    ensures |r| == |s| - 1
    ensures forall j :: 0 <= j < i ==> r[j] == s[j]
    ensures forall j :: i <= j < |r| ==> r[j] == s[j + 1]
    ensures multiset(r) + multiset{s[i]} == multiset(s)
  {
    assert s == s[..i] + [s[i]] + s[i + 1..];
    s[..i] + s[i + 1..]
  }

  /** `m` is an `n` by `n` matrix. */
  predicate IsSquare(m: seq<seq<real>>, n: nat)
  {
    |m| == n && forall i :: 0 <= i < n ==> |m[i]| == n
  }

  /** `m` is what `np.abs(np.corrcoef(...))` yields for `n` columns: square,
      symmetric and without negative entries. */
  predicate IsAbsCorrelation(m: seq<seq<real>>, n: nat)
  {
    && IsSquare(m, n)
    && (forall i, j :: 0 <= i < n && 0 <= j < n ==> m[i][j] >= 0.0)
    && (forall i, j :: 0 <= i < n && 0 <= j < n ==> m[i][j] == m[j][i])
  }
}

=== FILE: crosscorr.dfy ===
/** The aggregation of `DatasetApp.compute_cross_correlation`: the diagonal
    of the absolute correlation matrix is set to zero (`np.fill_diagonal`)
    and the matrix is summed down each column (`np.sum(..., axis=0)`),
    giving one value per current column. */
module CrossCorrelation {

  import opened Common

  /** `m` with its diagonal set to zero and every other entry kept. */
  function ZeroDiagonal(m: seq<seq<real>>, n: nat): (r: seq<seq<real>>)
    requires IsSquare(m, n)
    ensures IsSquare(r, n)
    ensures forall i, j :: 0 <= i < n && 0 <= j < n ==> r[i][j] == (if i == j then 0.0 else m[i][j])
  {
    seq(n, i requires 0 <= i < n => seq(n, j requires 0 <= j < n => if i == j then 0.0 else m[i][j]))
  }

  /** `m[0][k] + ... + m[a-1][k]`: the first `a` entries of column `k`. */
  function ColumnTotal(m: seq<seq<real>>, n: nat, k: nat, a: nat): (r: real)
    requires IsSquare(m, n) && k < n && a <= n
  {
    if a == 0 then 0.0 else ColumnTotal(m, n, k, a - 1) + m[a - 1][k]
  }

  /** `m[k][0] + ... + m[k][a-1]`: the first `a` entries of row `k`. */
  function RowTotal(m: seq<seq<real>>, n: nat, k: nat, a: nat): (r: real)
    requires IsSquare(m, n) && k < n && a <= n
  {
    if a == 0 then 0.0 else RowTotal(m, n, k, a - 1) + m[k][a - 1]
  }

  /** The cross-correlation of every column, in column order: entry `k` is
      the whole of column `k` less its diagonal entry, so a column's
      correlation with itself never counts, and on an absolute correlation
      matrix no entry is negative. */
  function CrossScores(corr: seq<seq<real>>, n: nat): (r: seq<real>)
    requires IsSquare(corr, n)
    ensures |r| == n
    ensures forall k :: 0 <= k < n ==> r[k] == ColumnTotal(corr, n, k, n) - corr[k][k]
    ensures IsAbsCorrelation(corr, n) ==> forall k :: 0 <= k < n ==> r[k] >= 0.0
  {
    var z := ZeroDiagonal(corr, n);
    ZeroDiagonalTotals(corr, n);
    seq(n, k requires 0 <= k < n => ColumnTotal(z, n, k, n))
  }

  lemma ZeroDiagonalTotals(m: seq<seq<real>>, n: nat)
    requires IsSquare(m, n)
    ensures forall k :: 0 <= k < n ==>
      ColumnTotal(ZeroDiagonal(m, n), n, k, n) == ColumnTotal(m, n, k, n) - m[k][k]
    ensures IsAbsCorrelation(m, n) ==> forall k :: 0 <= k < n ==> ColumnTotal(ZeroDiagonal(m, n), n, k, n) >= 0.0
  {
    forall k | 0 <= k < n
      ensures ColumnTotal(ZeroDiagonal(m, n), n, k, n) == ColumnTotal(m, n, k, n) - m[k][k]
      ensures IsAbsCorrelation(m, n) ==> ColumnTotal(ZeroDiagonal(m, n), n, k, n) >= 0.0
    {
      ZeroDiagonalTotal(m, n, k, n);
      if IsAbsCorrelation(m, n) {
        OffDiagonalTotalBounds(m, n, k, n);
      }
    }
  }

  lemma {:induction false} ZeroDiagonalTotal(m: seq<seq<real>>, n: nat, k: nat, a: nat)
    requires IsSquare(m, n) && k < n && a <= n
    ensures ColumnTotal(ZeroDiagonal(m, n), n, k, a) == ColumnTotal(m, n, k, a) - (if k < a then m[k][k] else 0.0)
  {
    if a > 0 {
      ZeroDiagonalTotal(m, n, k, a - 1);
    }
  }

  lemma {:induction false} ColumnTotalIsRowTotal(m: seq<seq<real>>, n: nat, k: nat, a: nat)
    requires IsAbsCorrelation(m, n) && k < n && a <= n
    ensures ColumnTotal(m, n, k, a) == RowTotal(m, n, k, a)
  {
    if a > 0 {
      ColumnTotalIsRowTotal(m, n, k, a - 1);
    }
  }

  /** Because the matrix is symmetric, summing down column `k` gives the
      same as summing along row `k`: the choice of axis does not matter. */
  lemma CrossScoreByRow(corr: seq<seq<real>>, n: nat, k: nat)
    requires IsAbsCorrelation(corr, n) && k < n
    ensures CrossScores(corr, n)[k] == RowTotal(corr, n, k, n) - corr[k][k]
  {
    ColumnTotalIsRowTotal(corr, n, k, n);
  }

  lemma {:induction false} OffDiagonalTotalBounds(m: seq<seq<real>>, n: nat, k: nat, a: nat)
    requires IsAbsCorrelation(m, n) && k < n && a <= n
    ensures ColumnTotal(ZeroDiagonal(m, n), n, k, a) >= 0.0
    ensures forall j :: 0 <= j < a && j != k ==> ColumnTotal(ZeroDiagonal(m, n), n, k, a) >= m[j][k]
    ensures ColumnTotal(ZeroDiagonal(m, n), n, k, a) == 0.0 <==>
      forall j :: 0 <= j < a && j != k ==> m[j][k] == 0.0
  {
    if a > 0 {
      OffDiagonalTotalBounds(m, n, k, a - 1);
    }
  }

  /** Entry `k` is never negative, is at least every correlation of column
      `k` with another column, and is zero exactly when column `k` is
      uncorrelated with every other column. */
  lemma CrossScoreBounds(corr: seq<seq<real>>, n: nat, k: nat)
    requires IsAbsCorrelation(corr, n) && k < n
    ensures CrossScores(corr, n)[k] >= 0.0
    ensures forall j :: 0 <= j < n && j != k ==> CrossScores(corr, n)[k] >= corr[j][k]
    ensures CrossScores(corr, n)[k] == 0.0 <==> forall j :: 0 <= j < n && j != k ==> corr[j][k] == 0.0
  {
    OffDiagonalTotalBounds(corr, n, k, n);
  }
}

=== FILE: fisher.dfy ===
/** The Fisher Discriminant Ratio of `DatasetApp.compute_fdr`. The classes
    are the distinct target values in increasing order (`np.unique`). For
    every feature column and every class, the rows of that class give a mean
    and a population variance (`np.var`), to which 1e-8 is added. A
    feature's score sums `(m_i - m_j)^2 / (v_i + v_j)` over every ORDERED
    pair of distinct classes, so each unordered pair counts twice. The
    ranking is the features sorted by score from high to low, ties in column
    order. Arithmetic is exact. */
module Fisher {

  import opened DataTable
  import opened Ranking

  /** The 1e-8 added to every class variance. */
  const Eps: real := 0.00000001

  predicate StrictlyIncreasing(s: seq<real>)
  {
    forall i, j :: 0 <= i < j < |s| ==> s[i] < s[j]
  }

  /** Everything after the head of a strictly increasing sequence is above
      the head. */
  lemma TailAbove(s: seq<real>)
    requires StrictlyIncreasing(s) && |s| > 0
    ensures forall y :: y in s <==> y == s[0] || y in s[1..]
    ensures forall y :: y in s[1..] ==> s[0] < y
  {
    assert s == [s[0]] + s[1..];
    forall y | y in s[1..] ensures s[0] < y {
      var k :| 0 <= k < |s[1..]| && s[1..][k] == y;
      assert s[k + 1] == y;
    }
  }

  /** A value below everything in a strictly increasing sequence can lead
      it. */
  lemma ConsIncreasing(a: real, r: seq<real>)
    requires StrictlyIncreasing(r) && forall y :: y in r ==> a < y
    ensures StrictlyIncreasing([a] + r)
  {
    var r' := [a] + r;
    forall i, j | 0 <= i < j < |r'| ensures r'[i] < r'[j] {
      assert r'[j] == r[j - 1] && r[j - 1] in r;
      if i > 0 {
        assert r'[i] == r[i - 1];
      }
    }
  }

  /** Adds `x` to a strictly increasing sequence unless it is already
      there. */
  function InsertUnique(x: real, s: seq<real>): (r: seq<real>)
    requires StrictlyIncreasing(s)
    ensures StrictlyIncreasing(r)
    ensures forall y :: y in r <==> y == x || y in s
  {
    if |s| == 0 then [x]
    else if x < s[0] then
      TailAbove(s);
      ConsIncreasing(x, s);
      [x] + s
    else if x == s[0] then s
    else
      TailAbove(s);
      var r := InsertUnique(x, s[1..]);
      ConsIncreasing(s[0], r);
      [s[0]] + r
  }

  /** `np.unique(targets)`: every target value once, in increasing order. */
  function Classes(labels: seq<real>): (r: seq<real>)
    ensures StrictlyIncreasing(r)
    ensures forall y :: y in r <==> y in labels
  {
    if |labels| == 0 then []
    else
      assert labels == [labels[0]] + labels[1..];
      InsertUnique(labels[0], Classes(labels[1..]))
  }

  /** When every row carries the same target, that target is the single
      class (there is none when there are no rows). */
  lemma {:induction false} OneTargetOneClass(labels: seq<real>)
    requires |labels| > 0
    requires forall i :: 0 <= i < |labels| ==> labels[i] == labels[0]
    ensures Classes(labels) == [labels[0]]
  {
    if |labels| > 1 {
      OneTargetOneClass(labels[1..]);
      assert labels[1..][0] == labels[0];
    }
  }

  /** `df.loc[targets == c].iloc[:, f]`: the values of one column on the
      rows whose target is `c`, in row order. */
  function ClassRows(xs: seq<real>, labels: seq<real>, c: real): (r: seq<real>)
    requires |xs| == |labels|
    ensures |r| <= |xs|
    ensures |r| > 0 <==> c in labels
  {
    if |xs| == 0 then []
    else
      assert labels == [labels[0]] + labels[1..];
      (if labels[0] == c then [xs[0]] else []) + ClassRows(xs[1..], labels[1..], c)
  }

  function Sum(xs: seq<real>): (r: real)
  {
    if |xs| == 0 then 0.0 else Sum(xs[..|xs| - 1]) + xs[|xs| - 1]
  }

  /** `np.mean`. */
  function Mean(xs: seq<real>): (r: real)
    requires |xs| > 0
  {
    Sum(xs) / (|xs| as real)
  }

  /** The sum of the squared distances of `xs` from `mu`. */
  function SquaredDeviation(xs: seq<real>, mu: real): (r: real)
    ensures r >= 0.0
  {
    if |xs| == 0 then 0.0
    else
      var d := xs[|xs| - 1] - mu;
      SquaredDeviation(xs[..|xs| - 1], mu) + d * d
  }

  /** `np.var` with its default `ddof=0`: the population variance. */
  function Variance(xs: seq<real>): (r: real)
    requires |xs| > 0
    ensures r >= 0.0
  {
    SquaredDeviation(xs, Mean(xs)) / (|xs| as real)
  }

  /** The mean of one column over the rows of each class, in class order. */
  function ClassMeans(xs: seq<real>, labels: seq<real>): (m: seq<real>)
    requires |xs| == |labels|
    ensures |m| == |Classes(labels)|
  {
    var cs := Classes(labels);
    seq(|cs|, k requires 0 <= k < |cs| => Mean(ClassRows(xs, labels, cs[k])))
  }

  /** The variance of one column over the rows of each class plus `Eps`, in
      class order; never zero, so the ratios below are defined. */
  function ClassVariances(xs: seq<real>, labels: seq<real>): (v: seq<real>)
    requires |xs| == |labels|
    ensures |v| == |Classes(labels)|
    ensures forall k :: 0 <= k < |v| ==> v[k] >= Eps
  {
    var cs := Classes(labels);
    seq(|cs|, k requires 0 <= k < |cs| => Variance(ClassRows(xs, labels, cs[k])) + Eps)
  }

  /** Class means and variances of equal number, every variance positive. */
  predicate Stats(m: seq<real>, v: seq<real>)
  {
    |m| == |v| && forall k :: 0 <= k < |v| ==> v[k] > 0.0
  }

  function Square(d: real): (r: real)
  {
    d * d
  }

  lemma SquarePositive(d: real)
    requires d > 0.0
    ensures Square(d) > 0.0
  {
    calc {
      Square(d);
    ==
      d * d;
    > { assert d * d > 0.0; }
      0.0;
    }
  }

  /** A square is never negative, and zero only for zero. */
  lemma SquareSign(d: real)
    ensures Square(d) >= 0.0
    ensures Square(d) > 0.0 <==> d != 0.0
  {
    if d > 0.0 {
      SquarePositive(d);
    } else if d < 0.0 {
      assert Square(d) == Square(-d);
      SquarePositive(-d);
    }
  }

  lemma QuotientSign(a: real, w: real)
    requires a >= 0.0 && w > 0.0
    ensures a / w >= 0.0
    ensures a / w > 0.0 <==> a > 0.0
  {
  }

  /** The discriminant ratio of classes `i` and `j`. */
  function Ratio(m: seq<real>, v: seq<real>, i: nat, j: nat): (r: real)
    requires Stats(m, v) && i < |m| && j < |m|
    ensures r >= 0.0
    ensures r > 0.0 <==> m[i] != m[j]
  {
    SquareSign(m[i] - m[j]);
    QuotientSign(Square(m[i] - m[j]), v[i] + v[j]);
    Square(m[i] - m[j]) / (v[i] + v[j])
  }

  lemma RatioSymmetric(m: seq<real>, v: seq<real>, i: nat, j: nat)
    requires Stats(m, v) && i < |m| && j < |m|
    ensures Ratio(m, v, i, j) == Ratio(m, v, j, i)
  {
    assert Square(m[i] - m[j]) == Square(m[j] - m[i]);
  }

  /** The source's inner loop: the ratios of class `i` against classes
      `j < b`, skipping `j == i`. */
  function RowSum(m: seq<real>, v: seq<real>, i: nat, b: nat): (r: real)
    requires Stats(m, v) && i < |m| && b <= |m|
  {
    if b == 0 then 0.0
    else RowSum(m, v, i, b - 1) + (if i != b - 1 then Ratio(m, v, i, b - 1) else 0.0)
  }

  /** The source's loop nest cut at `a` rows and `b` columns: the ratios of
      every class `i < a` against every other class `j < b`. */
  function OrderedSum(m: seq<real>, v: seq<real>, a: nat, b: nat): (r: real)
    requires Stats(m, v) && a <= |m| && b <= |m|
  {
    if a == 0 then 0.0 else OrderedSum(m, v, a - 1, b) + RowSum(m, v, a - 1, b)
  }

  /** The ratios of every class `i < a` against class `b`, skipping
      `i == b`. */
  function ColumnSum(m: seq<real>, v: seq<real>, a: nat, b: nat): (r: real)
    requires Stats(m, v) && a <= |m| && b < |m|
    ensures r >= 0.0
  {
    if a == 0 then 0.0
    else ColumnSum(m, v, a - 1, b) + (if a - 1 != b then Ratio(m, v, a - 1, b) else 0.0)
  }

  /** The sum over UNORDERED pairs `i < j < n` of distinct classes, each
      pair counted once. */
  function UnorderedSum(m: seq<real>, v: seq<real>, n: nat): (r: real)
    requires Stats(m, v) && n <= |m|
    ensures r >= 0.0
  {
    if n == 0 then 0.0 else UnorderedSum(m, v, n - 1) + ColumnSum(m, v, n - 1, n - 1)
  }

  /** The score of `compute_fdr` for given class means and variances: all
      ordered pairs `(i, j)`, `i != j`. */
  function PairScore(m: seq<real>, v: seq<real>): (r: real)
    requires Stats(m, v)
  {
    OrderedSum(m, v, |m|, |m|)
  }

  lemma {:induction false} OrderedSumWiden(m: seq<real>, v: seq<real>, a: nat, b: nat)
    requires Stats(m, v) && a <= |m| && b < |m|
    ensures OrderedSum(m, v, a, b + 1) == OrderedSum(m, v, a, b) + ColumnSum(m, v, a, b)
  {
    if a > 0 {
      OrderedSumWiden(m, v, a - 1, b);
    }
  }

  lemma {:induction false} RowSumIsColumnSum(m: seq<real>, v: seq<real>, k: nat, b: nat)
    requires Stats(m, v) && k < |m| && b <= |m|
    ensures RowSum(m, v, k, b) == ColumnSum(m, v, b, k)
  {
    if b > 0 {
      RowSumIsColumnSum(m, v, k, b - 1);
      if k != b - 1 {
        RatioSymmetric(m, v, k, b - 1);
      }
    }
  }

  /** The ordered-pair sum is exactly twice the unordered-pair sum: the
      source counts every pair of classes once in each order. */
  lemma {:induction false} OrderedIsTwiceUnordered(m: seq<real>, v: seq<real>, n: nat)
    requires Stats(m, v) && n <= |m|
    ensures OrderedSum(m, v, n, n) == 2.0 * UnorderedSum(m, v, n)
  {
    if n > 0 {
      var k := n - 1;
      OrderedIsTwiceUnordered(m, v, k);
      OrderedSumWiden(m, v, k, k);
      RowSumIsColumnSum(m, v, k, k);
      assert RowSum(m, v, k, n) == RowSum(m, v, k, k);
    }
  }

  lemma {:induction false} ColumnSumAtLeast(m: seq<real>, v: seq<real>, a: nat, b: nat, i: nat)
    requires Stats(m, v) && a <= |m| && b < |m| && i < a && i != b
    ensures ColumnSum(m, v, a, b) >= Ratio(m, v, i, b)
  {
    if i < a - 1 {
      ColumnSumAtLeast(m, v, a - 1, b, i);
    }
  }

  lemma {:induction false} UnorderedSumAtLeast(m: seq<real>, v: seq<real>, n: nat, i: nat, j: nat)
    requires Stats(m, v) && n <= |m| && i < j < n
    ensures UnorderedSum(m, v, n) >= Ratio(m, v, i, j)
  {
    if j == n - 1 {
      ColumnSumAtLeast(m, v, j, j, i);
    } else {
      UnorderedSumAtLeast(m, v, n - 1, i, j);
    }
  }

  lemma {:induction false} UnorderedSumZero(m: seq<real>, v: seq<real>, n: nat)
    requires Stats(m, v) && n <= |m|
    requires forall i :: 0 <= i < n ==> m[i] == m[0]
    ensures UnorderedSum(m, v, n) == 0.0
  {
    if n > 0 {
      UnorderedSumZero(m, v, n - 1);
      ColumnSumZero(m, v, n - 1, n - 1);
    }
  }

  lemma {:induction false} ColumnSumZero(m: seq<real>, v: seq<real>, a: nat, b: nat)
    requires Stats(m, v) && a <= |m| && b < |m|
    requires forall i :: 0 <= i < a ==> m[i] == m[b]
    ensures ColumnSum(m, v, a, b) == 0.0
  {
    if a > 0 {
      ColumnSumZero(m, v, a - 1, b);
    }
  }

  /** The pair score is never negative, and it is positive exactly when two
      classes have different means. */
  lemma PairScoreSign(m: seq<real>, v: seq<real>)
    requires Stats(m, v)
    ensures PairScore(m, v) == 2.0 * UnorderedSum(m, v, |m|)
    ensures PairScore(m, v) >= 0.0
    ensures PairScore(m, v) > 0.0 <==> exists i, j :: 0 <= i < j < |m| && m[i] != m[j]
  {
    var n := |m|;
    OrderedIsTwiceUnordered(m, v, n);
    if exists i, j :: 0 <= i < j < n && m[i] != m[j] {
      var i, j :| 0 <= i < j < n && m[i] != m[j];
      UnorderedSumAtLeast(m, v, n, i, j);
    } else if n > 0 {
      forall i | 0 <= i < n ensures m[i] == m[0] {
        if i > 0 {
          assert !(m[0] != m[i]);
        }
      }
      UnorderedSumZero(m, v, n);
    }
  }

  /** With exactly two classes the score is twice their discriminant
      ratio. */
  lemma PairScoreTwoClasses(m: seq<real>, v: seq<real>)
    requires Stats(m, v) && |m| == 2
    ensures PairScore(m, v) == 2.0 * Ratio(m, v, 0, 1)
  {
    PairScoreSign(m, v);
    assert UnorderedSum(m, v, 1) == 0.0;
    assert ColumnSum(m, v, 1, 1) == Ratio(m, v, 0, 1);
  }

  /** The FDR score of one feature column against the target vector. */
  function FeatureScore(xs: seq<real>, labels: seq<real>): (r: real)
    requires |xs| == |labels|
    ensures var m := ClassMeans(xs, labels);
            var v := ClassVariances(xs, labels);
            && r == 2.0 * UnorderedSum(m, v, |m|)
            && r >= 0.0
            && (r > 0.0 <==> exists i, j :: 0 <= i < j < |m| && m[i] != m[j])
  {
    var m := ClassMeans(xs, labels);
    var v := ClassVariances(xs, labels);
    PairScoreSign(m, v);
    PairScore(m, v)
  }

  /** When all rows share one target value, every feature scores zero. */
  lemma FeatureScoreOneTarget(xs: seq<real>, labels: seq<real>)
    requires |xs| == |labels|
    requires forall i :: 0 <= i < |labels| ==> labels[i] == labels[0]
    ensures FeatureScore(xs, labels) == 0.0
  {
    if |labels| > 0 {
      OneTargetOneClass(labels);
    }
  }

  /** The unsorted `zip(df.columns, fdr_values)`: one entry per column, in
      column order. */
  function FdrEntries(d: Dataset): (r: seq<Scored>)
    requires Valid(d) && d.targets.Some?
    ensures |r| == |d.table.columns|
    ensures Features(r) == Labels(d.table.columns)
  {
    var cols := d.table.columns;
    seq(|cols|, k requires 0 <= k < |cols| => Scored(cols[k].key, FeatureScore(cols[k].data, d.targets.value)))
  }

  /** `compute_fdr`: every current column exactly once, with its own FDR
      score, which is never negative; ordered by score from high to low,
      and columns of equal score in column order. */
  function FdrRanking(d: Dataset): (r: seq<Scored>)
    requires Valid(d) && d.targets.Some?
    ensures |r| == |d.table.columns|
    ensures DistinctFeatures(r)
    ensures forall k :: k in Features(r) <==> k in Labels(d.table.columns)
    ensures forall i :: 0 <= i < |r| ==>
      && PositionOf(d.table.columns, r[i].feature) < |d.table.columns|
      && var c := d.table.columns[PositionOf(d.table.columns, r[i].feature)];
         r[i].score == FeatureScore(c.data, d.targets.value) && r[i].score >= 0.0
    ensures Sorted(r)
    ensures forall i, j :: 0 <= i < j < |r| && r[i].score == r[j].score ==>
      PositionOf(d.table.columns, r[i].feature) < PositionOf(d.table.columns, r[j].feature)
  {
    var cols := d.table.columns;
    var es := FdrEntries(d);
    var r := SortDesc(es);
    FdrEntriesDistinct(d);
    SortDescDistinct(es);
    FdrRankingMembers(d, es, r);
    FdrRankingScores(d, es, r);
    FdrRankingTies(d, es, r);
    assert |r| == |multiset(r)| == |multiset(es)| == |es|;
    r
  }

  lemma FdrEntriesDistinct(d: Dataset)
    requires Valid(d) && d.targets.Some?
    ensures DistinctFeatures(FdrEntries(d))
  {
  }

  lemma FdrRankingMembers(d: Dataset, es: seq<Scored>, r: seq<Scored>)
    requires Valid(d) && d.targets.Some?
    requires es == FdrEntries(d) && r == SortDesc(es)
    ensures forall k :: k in Features(r) <==> k in Labels(d.table.columns)
  {
    var cols := d.table.columns;
    forall k | k in Features(r) ensures k in Labels(cols) {
      var i :| 0 <= i < |r| && Features(r)[i] == k;
      assert r[i] in multiset(es);
      var p :| 0 <= p < |es| && es[p] == r[i];
      assert Labels(cols)[p] == k;
    }
    forall k | k in Labels(cols) ensures k in Features(r) {
      var p :| 0 <= p < |cols| && Labels(cols)[p] == k;
      assert es[p] in multiset(r);
      var i :| 0 <= i < |r| && r[i] == es[p];
      assert Features(r)[i] == k;
    }
  }

  lemma FdrRankingScores(d: Dataset, es: seq<Scored>, r: seq<Scored>)
    requires Valid(d) && d.targets.Some?
    requires es == FdrEntries(d) && r == SortDesc(es)
    ensures forall i :: 0 <= i < |r| ==>
      && PositionOf(d.table.columns, r[i].feature) < |d.table.columns|
      && var c := d.table.columns[PositionOf(d.table.columns, r[i].feature)];
         r[i].score == FeatureScore(c.data, d.targets.value) && r[i].score >= 0.0
  {
    var cols := d.table.columns;
    forall i | 0 <= i < |r|
      ensures PositionOf(cols, r[i].feature) < |cols|
      ensures var c := cols[PositionOf(cols, r[i].feature)];
              r[i].score == FeatureScore(c.data, d.targets.value) && r[i].score >= 0.0
    {
      assert Features(r)[i] == r[i].feature;
      assert r[i] in multiset(es);
      var p :| 0 <= p < |es| && es[p] == r[i];
      PositionOfUnique(cols, r[i].feature, p);
    }
  }

  lemma FdrRankingTies(d: Dataset, es: seq<Scored>, r: seq<Scored>)
    requires Valid(d) && d.targets.Some?
    requires es == FdrEntries(d) && r == SortDesc(es)
    ensures forall i, j :: 0 <= i < j < |r| && r[i].score == r[j].score ==>
      PositionOf(d.table.columns, r[i].feature) < PositionOf(d.table.columns, r[j].feature)
  {
    var cols := d.table.columns;
    forall i, j | 0 <= i < j < |r| && r[i].score == r[j].score
      ensures PositionOf(cols, r[i].feature) < PositionOf(cols, r[j].feature)
    {
      SortDescKeepsTies(es, i, j);
      var p, q :| 0 <= p < q < |es| && es[p] == r[i] && es[q] == r[j];
      PositionOfUnique(cols, r[i].feature, p);
      PositionOfUnique(cols, r[j].feature, q);
    }
  }
}

=== FILE: keys.dfy ===
/** Column keys. A column of the table is labelled either by an integer (a
    table read without a header row is labelled 0, 1, 2, ...) or by a header
    name. The token a user types to pick a column is resolved into such a
    label by first trying Python's `int()` on it and, when that fails, taking
    the token with surrounding whitespace removed. */
module ColumnKeys {

  import opened Common

  /** A column label, and equally a resolved column key. `Int(5)` and
      `Name("5")` are different labels: there is no fallback from one to the
      other. */
  datatype Label = Int(n: int) | Name(s: string)

  /** The characters Python's `str.isspace` accepts, which `str.strip`
      discards at both ends of a token. */
  predicate IsSpace(c: char)
  {
    var n := c as int;
    || 9 <= n <= 13
    || 28 <= n <= 32
    || n == 0x85 || n == 0xA0 || n == 0x1680
    || 0x2000 <= n <= 0x200A
    || n == 0x2028 || n == 0x2029 || n == 0x202F || n == 0x205F || n == 0x3000
  }

  predicate AllSpace(s: string)
  {
    forall i :: 0 <= i < |s| ==> IsSpace(s[i])
  }

  /** The ASCII information separators U+001C to U+001F. `str.isspace`
      accepts them, but `int()` skips only the ASCII whitespace `\t \n \v
      \f \r` and space, and other non-ASCII whitespace, around a number:
      a token holding a separator is never read as an integer. */
  predicate IsSeparator(c: char)
  {
    28 <= c as int <= 31
  }

  predicate NoSeparator(s: string)
  {
    forall i :: 0 <= i < |s| ==> !IsSeparator(s[i])
  }

  /** Whitespace that `int()` skips around a number. */
  predicate AllIntSpace(s: string)
  {
    AllSpace(s) && NoSeparator(s)
  }

  /** True when `s` neither starts nor ends with whitespace. */
  predicate Trimmed(s: string)
  {
    |s| > 0 ==> !IsSpace(s[0]) && !IsSpace(s[|s| - 1])
  }

  /** The first position at or after `i` that does not hold whitespace, or
      `|s|` when there is none. */
  function SkipSpace(s: string, i: nat): (k: nat)
    requires i <= |s|
    ensures i <= k <= |s|
    ensures forall j :: i <= j < k ==> IsSpace(s[j])
    ensures k < |s| ==> !IsSpace(s[k])
    decreases |s| - i
  {
    if i < |s| && IsSpace(s[i]) then SkipSpace(s, i + 1) else i
  }

  /** The end of the text in `s[lo..hi]` once its trailing whitespace is
      dropped. */
  function TextEnd(s: string, lo: nat, hi: nat): (e: nat)
    requires lo <= hi <= |s|
    ensures lo <= e <= hi
    ensures forall j :: e <= j < hi ==> IsSpace(s[j])
    ensures e > lo ==> !IsSpace(s[e - 1])
    decreases hi
  {
    if lo < hi && IsSpace(s[hi - 1]) then TextEnd(s, lo, hi - 1) else hi
  }

  /** Python's `str.strip()` with no argument: the token without the
      whitespace around it. Nothing is left exactly when the text is all
      whitespace. */
  function Strip(s: string): (r: string)
    ensures |r| <= |s|
    ensures Trimmed(r)
    ensures |r| == 0 <==> AllSpace(s)
  {
    var a := SkipSpace(s, 0);
    s[a..TextEnd(s, a, |s|)]
  }

  /** Whitespace around an already trimmed token is exactly what `Strip`
      removes: it gives the token back unchanged. */
  lemma StripPadded(pre: string, t: string, post: string)
    requires AllSpace(pre) && AllSpace(post) && Trimmed(t)
    ensures Strip(pre + t + post) == t
  {
    var s := pre + t + post;
    var a := SkipSpace(s, 0);
    assert forall j :: 0 <= j < |pre| ==> s[j] == pre[j];
    assert forall j :: |pre| + |t| <= j < |s| ==> s[j] == post[j - |pre| - |t|];
    if |t| == 0 {
      assert AllSpace(s);
      assert a == |s|;
    } else {
      var b := |pre| + |t|;
      assert !IsSpace(s[|pre|]) by { assert s[|pre|] == t[0]; }
      assert a == |pre|;
      var e := TextEnd(s, a, |s|);
      assert !IsSpace(s[b - 1]) by { assert s[b - 1] == t[|t| - 1]; }
      assert forall j :: b <= j < |s| ==> IsSpace(s[j]);
      assert e == b;
      assert s[a..e] == t;
    }
  }

  /** Applying `Strip` twice removes nothing more. */
  lemma StripIdempotent(s: string)
    ensures Strip(Strip(s)) == Strip(s)
  {
    StripPadded([], Strip(s), []);
    assert [] + Strip(s) + [] == Strip(s);
  }

  predicate IsDigit(c: char)
  {
    48 <= c as int <= 57
  }

  /** A non-empty run of ASCII decimal digits. */
  predicate IsDigits(s: string)
  {
    |s| > 0 && forall i :: 0 <= i < |s| ==> IsDigit(s[i])
  }

  /** The value of a run of decimal digits, most significant digit first. */
  function DigitsValue(s: string): (v: nat)
    requires forall i :: 0 <= i < |s| ==> IsDigit(s[i])
  {
    if |s| == 0 then 0
    else
      assert IsDigit(s[|s| - 1]);
      DigitsValue(s[..|s| - 1]) * 10 + (s[|s| - 1] as int - 48)
  }

  /** Python's `int(token)` in base 10. Whitespace around the number is
      ignored, except the information separators: one of those next to the
      number stops `int()` before any digit, and one inside the token is no
      part of any number, so a token holding a separator is rejected. Any
      other token loses its surrounding whitespace and is read by
      `ParseDecimal`. `None` stands for the `ValueError` the source
      catches. */
  function ParseInt(s: string): (r: Option<int>)
  {
    if NoSeparator(s) then ParseDecimal(Strip(s)) else None
  }

  lemma AllSpaceConcat(x: string, y: string)
    requires AllSpace(x) && AllSpace(y)
    ensures AllSpace(x + y)
  {
    assert forall i :: |x| <= i < |x + y| ==> (x + y)[i] == y[i - |x|];
  }

  /** `t` is `Strip(t)` with the whitespace `Strip` removed around it. */
  lemma StripSplits(t: string) returns (pre: string, post: string)
    ensures AllSpace(pre) && AllSpace(post)
    ensures t == pre + Strip(t) + post
  {
    var a := SkipSpace(t, 0);
    var e := TextEnd(t, a, |t|);
    pre, post := t[..a], t[e..];
    assert AllSpace(post) by {
      assert forall i :: 0 <= i < |post| ==> post[i] == t[e + i];
    }
    SplitThree(t, a, e);
  }

  lemma SplitThree(t: string, a: nat, e: nat)
    requires a <= e <= |t|
    ensures t == t[..a] + t[a..e] + t[e..]
  {
  }

  /** Whitespace around a token never changes what `Strip` leaves. */
  lemma StripIgnoresSpace(pre: string, t: string, post: string)
    requires AllSpace(pre) && AllSpace(post)
    ensures Strip(pre + t + post) == Strip(t)
  {
    var u := Strip(t);
    var p, q := StripSplits(t);
    AllSpaceConcat(pre, p);
    AllSpaceConcat(q, post);
    Regroup(pre, p, u, q, post);
    StripPadded(pre + p, u, q + post);
  }

  lemma NoSeparatorPadded(pre: string, t: string, post: string)
    ensures NoSeparator(pre + t + post) <==> NoSeparator(pre) && NoSeparator(t) && NoSeparator(post)
  {
    var s := pre + t + post;
    assert forall i :: 0 <= i < |pre| ==> s[i] == pre[i];
    assert forall i :: 0 <= i < |t| ==> s[|pre| + i] == t[i];
    assert forall i :: 0 <= i < |post| ==> s[|pre| + |t| + i] == post[i];
  }

  /** Whitespace that `int()` skips never changes what `int()` reads from
      the token it surrounds. */
  lemma ParseIntIgnoresSpace(pre: string, t: string, post: string)
    requires AllIntSpace(pre) && AllIntSpace(post)
    ensures ParseInt(pre + t + post) == ParseInt(t)
  {
    StripIgnoresSpace(pre, t, post);
    NoSeparatorPadded(pre, t, post);
  }

  /** A token `int()` rejects stays rejected whatever whitespace surrounds
      it, separators included. */
  lemma ParseIntPaddedNone(pre: string, t: string, post: string)
    requires AllSpace(pre) && AllSpace(post) && ParseInt(t).None?
    ensures ParseInt(pre + t + post).None?
  {
    StripIgnoresSpace(pre, t, post);
    NoSeparatorPadded(pre, t, post);
  }

  lemma Regroup(a: string, b: string, c: string, d: string, e: string)
    ensures a + (b + c + d) + e == (a + b) + c + (d + e)
  {
  }

  /** A token without surrounding whitespace read as `int()` reads it: an
      optional `+` or `-` sign followed directly by one or more digits,
      leading zeros allowed. */
  function ParseDecimal(t: string): (r: Option<int>)
  {
    if |t| > 0 && (t[0] == '+' || t[0] == '-') then
      if IsDigits(t[1..]) then
        var v: int := DigitsValue(t[1..]);
        Some(if t[0] == '-' then -v else v)
      else None
    else if IsDigits(t) then Some(DigitsValue(t))
    else None
  }

  /** The decimal digits of `n`, without a sign. */
  function ShowNat(n: nat): (r: string)
  {
    if n < 10 then [(48 + n) as char]
    else ShowNat(n / 10) + [(48 + n % 10) as char]
  }

  /** How `str(n)` writes an integer: a minus sign for negatives, then its
      digits. */
  function ShowInt(n: int): (r: string)
  {
    if n < 0 then "-" + ShowNat(-n) else ShowNat(n)
  }

  lemma {:induction false} ShowNatDigits(n: nat)
    ensures IsDigits(ShowNat(n))
    ensures DigitsValue(ShowNat(n)) == n
  {
    if n >= 10 {
      ShowNatDigits(n / 10);
      var s := ShowNat(n);
      assert s[..|s| - 1] == ShowNat(n / 10);
    }
  }

  /** `str(n)` has no whitespace around it. */
  lemma ShowIntTrimmed(n: int)
    ensures |ShowInt(n)| > 0 && Trimmed(ShowInt(n))
  {
    var m := if n < 0 then -n else n;
    ShowNatDigits(m);
    var t := ShowNat(m);
    assert IsDigit(t[0]) && IsDigit(t[|t| - 1]);
    var s := ShowInt(n);
    if n < 0 {
      assert s == "-" + t;
      assert s[0] == '-' && s[|s| - 1] == t[|t| - 1];
    }
  }

  lemma ParseDecimalShow(n: int)
    ensures ParseDecimal(ShowInt(n)) == Some(n)
  {
    var m := if n < 0 then -n else n;
    ShowNatDigits(m);
    var t := ShowNat(m);
    assert IsDigit(t[0]);
    if n < 0 {
      var s := ShowInt(n);
      assert s == "-" + t;
      assert s[0] == '-' && s[1..] == t;
    } else {
      assert t[0] != '+' && t[0] != '-';
    }
  }

  lemma ShowIntNoSeparator(n: int)
    ensures NoSeparator(ShowInt(n))
  {
    var m: nat := if n < 0 then -n else n;
    ShowNatDigits(m);
    var s := ShowInt(n);
    if n < 0 {
      assert forall i :: 1 <= i < |s| ==> s[i] == ShowNat(m)[i - 1];
    }
  }

  /** `int()` reads back exactly the integer `str()` wrote: the two are
      inverse on every integer. */
  lemma ParseShowRoundTrip(n: int)
    ensures Strip(ShowInt(n)) == ShowInt(n)
    ensures ParseInt(ShowInt(n)) == Some(n)
  {
    var s := ShowInt(n);
    ShowIntNoSeparator(n);
    ShowIntTrimmed(n);
    StripPadded([], s, []);
    assert [] + s + [] == s;
    ParseDecimalShow(n);
  }

  /** How the source turns the dialog's answer into a column key: a
      cancelled (`None`), empty or whitespace-only answer yields no key; a
      token `int()` accepts yields `Int(n)`; any other token yields its
      stripped text as a name. */
  function ResolveKey(input: Option<string>): (r: Option<Label>)
    ensures r.None? <==> input.None? || |Strip(input.value)| == 0
    ensures r.Some? && r.value.Int? ==> ParseInt(input.value) == Some(r.value.n)
    ensures r.Some? && r.value.Name? ==>
      && r.value.s == Strip(input.value)
      && |r.value.s| > 0 && Trimmed(r.value.s)
      && ParseInt(input.value).None?
  {
    if input.None? || Strip(input.value) == "" then None
    else
      match ParseInt(input.value)
      case Some(n) => Some(Int(n))
      case None => Some(Name(Strip(input.value)))
  }

  /** Typing an integer, with whitespace `int()` skips around it, selects
      the column labelled by that integer. */
  lemma ResolvePaddedInt(pre: string, n: int, post: string)
    requires AllIntSpace(pre) && AllIntSpace(post)
    ensures ResolveKey(Some(pre + ShowInt(n) + post)) == Some(Int(n))
  {
    ParseShowRoundTrip(n);
    ShowIntTrimmed(n);
    StripPadded(pre, ShowInt(n), post);
    ParseIntIgnoresSpace(pre, ShowInt(n), post);
  }

  /** Typing a trimmed name that is not an integer selects exactly that
      name, with any whitespace around it. */
  lemma ResolvePaddedName(pre: string, t: string, post: string)
    requires AllSpace(pre) && AllSpace(post)
    requires |t| > 0 && Trimmed(t) && ParseInt(t).None?
    ensures ResolveKey(Some(pre + t + post)) == Some(Name(t))
  {
    StripPadded(pre, t, post);
    ParseIntPaddedNone(pre, t, post);
  }

  /** An integer typed next to an information separator is not read as an
      integer: `int()` fails on it, and the key becomes the integer's digits
      as a name. */
  lemma ResolveSeparatorPadded(pre: string, n: int, post: string)
    requires AllSpace(pre) && AllSpace(post)
    requires !NoSeparator(pre) || !NoSeparator(post)
    ensures ResolveKey(Some(pre + ShowInt(n) + post)) == Some(Name(ShowInt(n)))
  {
    ShowIntTrimmed(n);
    StripPadded(pre, ShowInt(n), post);
    NoSeparatorPadded(pre, ShowInt(n), post);
  }
}

=== FILE: pearson.dfy ===
/** The redundancy selection of `DatasetApp.compute_pearson_coef`. Given the
    absolute correlation matrix of the current columns and a threshold, the
    source scans every pair of columns `i < j` row by row and, for each pair
    whose correlation reaches the threshold, records both columns with that
    correlation. A dictionary then keeps, per column, the largest value
    recorded for it (replacing a value only by a strictly greater one, and
    keeping the column where it was first inserted), and the dictionary's
    items are sorted by value from high to low with a stable sort. */
module Pearson {

  import opened Common
  import opened ColumnKeys
  import opened Ranking

  /** Pair `(a, b)` of columns, `a < b`, reaches the threshold and involves
      the column labelled `f`. */
  predicate Covers(names: seq<Label>, corr: seq<seq<real>>, coef: real, a: int, b: int, f: Label)
    requires IsSquare(corr, |names|)
  {
    && 0 <= a < b < |names|
    && corr[a][b] >= coef
    && (names[a] == f || names[b] == f)
  }

  /** Pair `(a, b)` reaches the threshold, involves `x`'s column and has
      `x`'s value. */
  predicate Records(names: seq<Label>, corr: seq<seq<real>>, coef: real, a: int, b: int, x: Scored)
    requires IsSquare(corr, |names|)
  {
    Covers(names, corr, coef, a, b, x.feature) && x.score == corr[a][b]
  }

  /** The two entries the scan records for a pair that reaches the
      threshold, or none. */
  function PairEntries(names: seq<Label>, corr: seq<seq<real>>, coef: real, a: nat, b: nat): (r: seq<Scored>)
    requires IsSquare(corr, |names|) && a < b < |names|
  {
    if corr[a][b] >= coef then [Scored(names[a], corr[a][b]), Scored(names[b], corr[a][b])] else []
  }

  /** The inner loop for row `a`, from column `b` to the last one. */
  function RowPairs(names: seq<Label>, corr: seq<seq<real>>, coef: real, a: nat, b: nat): (r: seq<Scored>)
    requires IsSquare(corr, |names|) && a < b <= |names|
    decreases |names| - b
  {
    if b == |names| then []
    else PairEntries(names, corr, coef, a, b) + RowPairs(names, corr, coef, a, b + 1)
  }

  /** The outer loop, from row `a` to the last one. */
  function ScanFrom(names: seq<Label>, corr: seq<seq<real>>, coef: real, a: nat): (r: seq<Scored>)
    requires IsSquare(corr, |names|) && a <= |names|
    decreases |names| - a
  {
    if a == |names| then []
    else RowPairs(names, corr, coef, a, a + 1) + ScanFrom(names, corr, coef, a + 1)
  }

  /** The list `selected_pairs`, in the order the scan appends to it. */
  function SelectedPairs(names: seq<Label>, corr: seq<seq<real>>, coef: real): (r: seq<Scored>)
    requires IsSquare(corr, |names|)
  {
    ScanFrom(names, corr, coef, 0)
  }

  lemma {:induction false} RowPairsSound(names: seq<Label>, corr: seq<seq<real>>, coef: real, a: nat, b: nat, x: Scored)
    requires IsSquare(corr, |names|) && a < b <= |names|
    requires x in RowPairs(names, corr, coef, a, b)
    ensures exists b' :: b <= b' && Records(names, corr, coef, a, b', x)
    decreases |names| - b
  {
    if x in PairEntries(names, corr, coef, a, b) {
      assert Records(names, corr, coef, a, b, x);
    } else {
      RowPairsSound(names, corr, coef, a, b + 1, x);
    }
  }

  lemma {:induction false} RowPairsComplete(names: seq<Label>, corr: seq<seq<real>>, coef: real, a: nat, b: nat, b': nat, x: Scored)
    requires IsSquare(corr, |names|) && a < b <= b'
    requires Records(names, corr, coef, a, b', x)
    ensures x in RowPairs(names, corr, coef, a, b)
    decreases b' - b
  {
    if b < b' {
      RowPairsComplete(names, corr, coef, a, b + 1, b', x);
    } else {
      assert x in PairEntries(names, corr, coef, a, b);
    }
  }

  lemma {:induction false} ScanSound(names: seq<Label>, corr: seq<seq<real>>, coef: real, a: nat, x: Scored)
    requires IsSquare(corr, |names|) && a <= |names|
    requires x in ScanFrom(names, corr, coef, a)
    ensures exists a', b' :: a <= a' && Records(names, corr, coef, a', b', x)
    decreases |names| - a
  {
    if x in RowPairs(names, corr, coef, a, a + 1) {
      RowPairsSound(names, corr, coef, a, a + 1, x);
      var b' :| a + 1 <= b' && Records(names, corr, coef, a, b', x);
    } else {
      ScanSound(names, corr, coef, a + 1, x);
    }
  }

  lemma {:induction false} ScanComplete(names: seq<Label>, corr: seq<seq<real>>, coef: real, a: nat, a': nat, b': nat, x: Scored)
    requires IsSquare(corr, |names|) && a <= a'
    requires Records(names, corr, coef, a', b', x)
    ensures x in ScanFrom(names, corr, coef, a)
    decreases a' - a
  {
    assert a < |names|;
    var row := RowPairs(names, corr, coef, a, a + 1);
    var rest := ScanFrom(names, corr, coef, a + 1);
    assert ScanFrom(names, corr, coef, a) == row + rest;
    if a < a' {
      ScanComplete(names, corr, coef, a + 1, a', b', x);
      assert x in rest;
    } else {
      RowPairsComplete(names, corr, coef, a, a + 1, b', x);
      assert x in row;
    }
  }

  /** Every entry the scan records comes from a pair reaching the threshold
      that involves its column and has its value. Diagonal entries never
      take part. */
  lemma SelectedPairsSound(names: seq<Label>, corr: seq<seq<real>>, coef: real, x: Scored)
    requires IsSquare(corr, |names|)
    ensures x in SelectedPairs(names, corr, coef) ==>
      exists a, b :: Records(names, corr, coef, a, b, x)
  {
    if x in SelectedPairs(names, corr, coef) {
      ScanSound(names, corr, coef, 0, x);
    }
  }

  /** Every pair reaching the threshold has both of its columns recorded
      with its value. */
  lemma SelectedPairsComplete(names: seq<Label>, corr: seq<seq<real>>, coef: real, a: int, b: int)
    requires IsSquare(corr, |names|)
    requires 0 <= a < b < |names| && corr[a][b] >= coef
    ensures Scored(names[a], corr[a][b]) in SelectedPairs(names, corr, coef)
    ensures Scored(names[b], corr[a][b]) in SelectedPairs(names, corr, coef)
  {
    ScanComplete(names, corr, coef, 0, a, b, Scored(names[a], corr[a][b]));
    ScanComplete(names, corr, coef, 0, a, b, Scored(names[b], corr[a][b]));
  }

  /** The position of the first entry for feature `f`, or `|d|` when there
      is none. */
  function Find(d: seq<Scored>, f: Label): (k: nat)
    ensures k <= |d|
    ensures k < |d| ==> d[k].feature == f
  {
    if |d| == 0 then 0
    else if d[0].feature == f then 0
    else 1 + Find(d[1..], f)
  }

  /** No entry before the one `Find` reports has feature `f`. */
  lemma {:induction false} FindIsFirst(d: seq<Scored>, f: Label)
    ensures forall i :: 0 <= i < Find(d, f) ==> d[i].feature != f
  {
    if |d| > 0 && d[0].feature != f {
      FindIsFirst(d[1..], f);
      assert forall i :: 1 <= i < Find(d, f) ==> d[i] == d[1..][i - 1];
    }
  }

  /** An entry with feature `f` at `q` bounds where the first one is. */
  lemma FindAtMost(d: seq<Scored>, f: Label, q: nat)
    requires q < |d| && d[q].feature == f
    ensures Find(d, f) <= q
  {
    FindIsFirst(d, f);
  }

  /** Where the first entry for `f` sits once `x` is appended. */
  lemma FindAppend(d: seq<Scored>, x: Scored, f: Label)
    ensures Find(d + [x], f) ==
      if Find(d, f) < |d| then Find(d, f) else if x.feature == f then |d| else |d| + 1
  {
    var k := Find(d, f);
    var k' := Find(d + [x], f);
    FindIsFirst(d, f);
    FindIsFirst(d + [x], f);
    assert forall i :: 0 <= i < |d| ==> (d + [x])[i] == d[i];
    if k < |d| {
      assert (d + [x])[k].feature == f;
      assert !(k' < k);
    } else if x.feature == f {
      assert (d + [x])[|d|].feature == f;
      assert !(k' < |d|);
    } else {
      assert forall i :: 0 <= i < |d| + 1 ==> (d + [x])[i].feature != f;
    }
  }

  /** One step of the dictionary loop: a feature seen for the first time is
      appended with its value; a known feature takes the new value only when
      it is strictly greater than the stored one, and keeps its place. In
      every case the item for `x`'s feature ends up holding at least `x`'s
      value. */
  function Absorb(d: seq<Scored>, x: Scored): (r: seq<Scored>)
    ensures |r| == |d| || |r| == |d| + 1
    ensures |r| == |d| + 1 <==> forall i :: 0 <= i < |d| ==> d[i].feature != x.feature
    ensures |r| == |d| + 1 ==> r[|d|] == x
    ensures forall i :: 0 <= i < |d| ==> r[i].feature == d[i].feature
    ensures forall i :: 0 <= i < |d| ==> r[i] == d[i] || (r[i] == x && d[i].score < x.score)
    ensures Find(r, x.feature) < |r| && x.score <= r[Find(r, x.feature)].score
  {
    var k := Find(d, x.feature);
    FindIsFirst(d, x.feature);
    if k == |d| then
      FindAppend(d, x, x.feature);
      d + [x]
    else if d[k].score < x.score then
      FindSameFeatures(d, d[k := x], x.feature);
      d[k := x]
    else d
  }

  /** `pearson_dict` after the loop over the entries of `ps`, as the list of
      its items in insertion order: one item for each feature `ps` records
      and for no other; each item is an entry of `ps` holding the largest
      value recorded for its feature; items are in the order their features
      were first recorded, which updates do not change. */
  function MaxDict(ps: seq<Scored>): (r: seq<Scored>)
    ensures |r| <= |ps|
    ensures DictOf(ps, r)
  {
    if |ps| == 0 then []
    else
      var pre := ps[..|ps| - 1];
      var x := ps[|ps| - 1];
      var d := MaxDict(pre);
      assert pre + [x] == ps;
      AbsorbStep(pre, x, d);
      Absorb(d, x)
  }

  /** `d` has an item for exactly the features that `ps` records. */
  ghost predicate SameFeatures(ps: seq<Scored>, d: seq<Scored>)
  {
    forall f :: Find(d, f) < |d| <==> Find(ps, f) < |ps|
  }

  /** Every item of `d` is an entry of `ps`. */
  predicate FromRecords(ps: seq<Scored>, d: seq<Scored>)
  {
    forall i :: 0 <= i < |d| ==> d[i] in ps
  }

  /** Every item of `d` holds the largest value `ps` records for its
      feature. */
  predicate Maximal(ps: seq<Scored>, d: seq<Scored>)
  {
    forall i, q :: 0 <= i < |d| && 0 <= q < |ps| && ps[q].feature == d[i].feature ==>
      ps[q].score <= d[i].score
  }

  /** Every item of `d` has a feature that `ps` records. */
  predicate Recorded(ps: seq<Scored>, d: seq<Scored>)
  {
    forall i :: 0 <= i < |d| ==> Find(ps, d[i].feature) < |ps|
  }

  /** `d` lists its features in the order of their first entry in `ps`. */
  predicate FirstSeenOrder(ps: seq<Scored>, d: seq<Scored>)
  {
    forall i, j :: 0 <= i < j < |d| ==> Find(ps, d[i].feature) < Find(ps, d[j].feature)
  }

  ghost predicate DictOf(ps: seq<Scored>, d: seq<Scored>)
  {
    && DistinctFeatures(d)
    && SameFeatures(ps, d)
    && FromRecords(ps, d)
    && Maximal(ps, d)
    && Recorded(ps, d)
    && FirstSeenOrder(ps, d)
  }

  /** Appending an entry to `ps` moves no feature's first entry. */
  lemma ExtendRecords(pre: seq<Scored>, x: Scored, d: seq<Scored>)
    requires Recorded(pre, d)
    ensures forall i :: 0 <= i < |d| ==> Find(pre + [x], d[i].feature) == Find(pre, d[i].feature)
    ensures Recorded(pre + [x], d)
    ensures FirstSeenOrder(pre, d) ==> FirstSeenOrder(pre + [x], d)
  {
    forall i | 0 <= i < |d| ensures Find(pre + [x], d[i].feature) == Find(pre, d[i].feature) {
      FindAppend(pre, x, d[i].feature);
    }
  }

  /** Two lists with the same features position by position give the same
      `Find`. */
  lemma {:induction false} FindSameFeatures(d: seq<Scored>, e: seq<Scored>, f: Label)
    requires |d| == |e| && forall i :: 0 <= i < |d| ==> d[i].feature == e[i].feature
    ensures Find(d, f) == Find(e, f)
  {
    if |d| > 0 && d[0].feature != f {
      FindSameFeatures(d[1..], e[1..], f);
    }
  }

  /** Lists with the same features position by position agree on every
      property that only looks at features. */
  lemma SameFeaturesPositionwise(ps: seq<Scored>, d: seq<Scored>, r: seq<Scored>)
    requires |d| == |r| && forall i :: 0 <= i < |d| ==> d[i].feature == r[i].feature
    ensures forall f :: Find(r, f) == Find(d, f)
    ensures DistinctFeatures(d) ==> DistinctFeatures(r)
    ensures Recorded(ps, d) ==> Recorded(ps, r)
    ensures FirstSeenOrder(ps, d) ==> FirstSeenOrder(ps, r)
  {
    forall f ensures Find(r, f) == Find(d, f) {
      FindSameFeatures(d, r, f);
    }
  }

  /** The features of `pre + [x]` are those of `pre` and `x`'s. */
  lemma FindExtendedFeatures(pre: seq<Scored>, x: Scored, f: Label)
    ensures Find(pre + [x], f) < |pre| + 1 <==> Find(pre, f) < |pre| || x.feature == f
  {
    FindAppend(pre, x, f);
  }

  /** An entry for a feature the dictionary does not hold yet is appended:
      the dictionary still describes the longer list. */
  lemma AbsorbNew(pre: seq<Scored>, x: Scored, d: seq<Scored>)
    requires DictOf(pre, d) && Find(d, x.feature) == |d|
    ensures DictOf(pre + [x], d + [x])
  {
    assert Find(pre, x.feature) == |pre|;
    AbsorbNewFeatures(pre, x, d);
    AbsorbNewEntries(pre, x, d);
    AbsorbNewRecorded(pre, x, d);
    AbsorbNewOrder(pre, x, d);
  }

  lemma AbsorbNewFeatures(pre: seq<Scored>, x: Scored, d: seq<Scored>)
    requires DistinctFeatures(d) && SameFeatures(pre, d) && Find(d, x.feature) == |d|
    ensures DistinctFeatures(d + [x]) && SameFeatures(pre + [x], d + [x])
  {
    FindIsFirst(d, x.feature);
    forall f ensures Find(d + [x], f) < |d| + 1 <==> Find(pre + [x], f) < |pre| + 1 {
      FindExtendedFeatures(pre, x, f);
      FindExtendedFeatures(d, x, f);
    }
  }

  lemma AbsorbNewEntries(pre: seq<Scored>, x: Scored, d: seq<Scored>)
    requires FromRecords(pre, d) && Maximal(pre, d)
    requires Find(d, x.feature) == |d| && Find(pre, x.feature) == |pre|
    ensures FromRecords(pre + [x], d + [x]) && Maximal(pre + [x], d + [x])
  {
    FindIsFirst(d, x.feature);
    FindIsFirst(pre, x.feature);
    var ps := pre + [x];
    var r := d + [x];
    forall i | 0 <= i < |r| ensures r[i] in ps {
      if i < |d| {
        assert r[i] == d[i] && d[i] in pre;
      }
    }
    forall i, q | 0 <= i < |r| && 0 <= q < |ps| && ps[q].feature == r[i].feature
      ensures ps[q].score <= r[i].score
    {
      // A feature of `d` is not `x`'s, and `pre` has no entry for `x`'s.
      assert i < |d| ==> r[i] == d[i] && d[i].feature != x.feature;
      assert q < |pre| ==> ps[q] == pre[q] && pre[q].feature != x.feature;
    }
  }

  lemma AbsorbNewRecorded(pre: seq<Scored>, x: Scored, d: seq<Scored>)
    requires Recorded(pre, d) && Find(pre, x.feature) == |pre|
    ensures Recorded(pre + [x], d + [x])
  {
    var ps := pre + [x];
    var r := d + [x];
    FindAppend(pre, x, x.feature);
    forall i | 0 <= i < |r| ensures Find(ps, r[i].feature) < |ps| {
      if i < |d| {
        assert r[i] == d[i];
        FindAppend(pre, x, d[i].feature);
      }
    }
  }

  lemma AbsorbNewOrder(pre: seq<Scored>, x: Scored, d: seq<Scored>)
    requires Recorded(pre, d) && FirstSeenOrder(pre, d) && Find(pre, x.feature) == |pre|
    ensures FirstSeenOrder(pre + [x], d + [x])
  {
    var ps := pre + [x];
    var r := d + [x];
    FindAppend(pre, x, x.feature);
    forall i, j | 0 <= i < j < |r| ensures Find(ps, r[i].feature) < Find(ps, r[j].feature) {
      assert r[i] == d[i];
      FindAppend(pre, x, d[i].feature);
      if j < |d| {
        assert r[j] == d[j];
        FindAppend(pre, x, d[j].feature);
      }
    }
  }

  /** An entry for a feature the dictionary holds at `k` leaves the
      features and their order alone, and at `k` keeps the larger value. */
  lemma AbsorbKnown(pre: seq<Scored>, x: Scored, d: seq<Scored>, k: nat)
    requires DictOf(pre, d) && k == Find(d, x.feature) && k < |d|
    ensures DictOf(pre + [x], d[k := if d[k].score < x.score then x else d[k]])
  {
    var w := if d[k].score < x.score then x else d[k];
    var r := d[k := w];
    assert Find(pre, x.feature) < |pre|;
    SameFeaturesPositionwise(pre + [x], d, r);
    ExtendRecords(pre, x, d);
    AbsorbKnownFeatures(pre, x, d, r);
    AbsorbKnownEntries(pre, x, d, k, w);
  }

  lemma AbsorbKnownFeatures(pre: seq<Scored>, x: Scored, d: seq<Scored>, r: seq<Scored>)
    requires SameFeatures(pre, d) && Find(pre, x.feature) < |pre|
    requires forall f :: Find(r, f) == Find(d, f)
    requires |r| == |d|
    ensures SameFeatures(pre + [x], r)
  {
    forall f ensures Find(r, f) < |r| <==> Find(pre + [x], f) < |pre| + 1 {
      FindExtendedFeatures(pre, x, f);
    }
  }

  lemma AbsorbKnownEntries(pre: seq<Scored>, x: Scored, d: seq<Scored>, k: nat, w: Scored)
    requires DistinctFeatures(d) && FromRecords(pre, d) && Maximal(pre, d)
    requires k < |d| && d[k].feature == x.feature
    requires w == if d[k].score < x.score then x else d[k]
    ensures FromRecords(pre + [x], d[k := w]) && Maximal(pre + [x], d[k := w])
  {
    var ps := pre + [x];
    var r := d[k := w];
    forall i | 0 <= i < |r| ensures r[i] in ps {
      assert i != k ==> r[i] == d[i] && d[i] in pre;
      assert d[k] in pre;
    }
    forall i, q | 0 <= i < |r| && 0 <= q < |ps| && ps[q].feature == r[i].feature
      ensures ps[q].score <= r[i].score
    {
      // Only the item at `k` has `x`'s feature, and it keeps the larger
      // value.
      assert i != k ==> r[i] == d[i] && d[i].feature != x.feature;
      assert q < |pre| ==> ps[q] == pre[q];
      assert w.score >= d[k].score && w.score >= x.score;
    }
  }

  /** One step of the loop keeps the dictionary describing the entries
      seen so far. */
  lemma AbsorbStep(pre: seq<Scored>, x: Scored, d: seq<Scored>)
    requires DictOf(pre, d)
    ensures DictOf(pre + [x], Absorb(d, x))
  {
    var k := Find(d, x.feature);
    if k == |d| {
      AbsorbNew(pre, x, d);
    } else {
      AbsorbKnown(pre, x, d, k);
      assert d[k := d[k]] == d;
    }
  }

  /** `compute_pearson_coef` on the current column labels `names` and the
      absolute correlation matrix `corr` of the columns. */
  function PearsonRanking(names: seq<Label>, corr: seq<seq<real>>, coef: real): (r: seq<Scored>)
    requires IsSquare(corr, |names|)
    ensures Sorted(r)
    ensures DistinctFeatures(r)
  {
    var m := MaxDict(SelectedPairs(names, corr, coef));
    SortDescDistinct(m);
    SortDesc(m)
  }

  /** A feature is listed by the sorted dictionary exactly when the
      dictionary holds it. */
  lemma ListedIffHeld(m: seq<Scored>, f: Label)
    ensures f in Features(SortDesc(m)) <==> Find(m, f) < |m|
  {
    var r := SortDesc(m);
    if f in Features(r) {
      var i :| 0 <= i < |r| && Features(r)[i] == f;
      assert r[i] in multiset(m);
      var k :| 0 <= k < |m| && m[k] == r[i];
      FindAtMost(m, f, k);
    }
    if Find(m, f) < |m| {
      var k := Find(m, f);
      assert m[k] in multiset(r);
      var i :| 0 <= i < |r| && r[i] == m[k];
      assert Features(r)[i] == f;
    }
  }

  /** The column of a pair reaching the threshold is recorded with the
      pair's value. */
  lemma CoveredRecorded(names: seq<Label>, corr: seq<seq<real>>, coef: real, a: int, b: int, f: Label)
    requires IsSquare(corr, |names|) && Covers(names, corr, coef, a, b, f)
    ensures Scored(f, corr[a][b]) in SelectedPairs(names, corr, coef)
  {
    SelectedPairsComplete(names, corr, coef, a, b);
  }

  /** An entry is recorded by the scan exactly when some pair reaching the
      threshold involves its column and has its value. */
  lemma SelectedPairsMembers(names: seq<Label>, corr: seq<seq<real>>, coef: real, x: Scored)
    requires IsSquare(corr, |names|)
    ensures x in SelectedPairs(names, corr, coef) <==>
      exists a, b :: Records(names, corr, coef, a, b, x)
  {
    SelectedPairsSound(names, corr, coef, x);
    if exists a, b :: Records(names, corr, coef, a, b, x) {
      var a, b :| Records(names, corr, coef, a, b, x);
      CoveredRecorded(names, corr, coef, a, b, x.feature);
    }
  }

  /** A feature has an entry in the scan exactly when some pair reaching the
      threshold involves it. */
  lemma RecordedIffCovered(names: seq<Label>, corr: seq<seq<real>>, coef: real, f: Label)
    requires IsSquare(corr, |names|)
    ensures Find(SelectedPairs(names, corr, coef), f) < |SelectedPairs(names, corr, coef)| <==>
      exists a, b :: Covers(names, corr, coef, a, b, f)
  {
    var ps := SelectedPairs(names, corr, coef);
    if Find(ps, f) < |ps| {
      SelectedPairsSound(names, corr, coef, ps[Find(ps, f)]);
    }
    if exists a, b :: Covers(names, corr, coef, a, b, f) {
      var a, b :| Covers(names, corr, coef, a, b, f);
      CoveredRecorded(names, corr, coef, a, b, f);
      var q :| 0 <= q < |ps| && ps[q] == Scored(f, corr[a][b]);
      FindAtMost(ps, f, q);
    }
  }

  /** A column is listed exactly when some pair of distinct columns that
      reaches the threshold involves it. */
  lemma PearsonRankingMembers(names: seq<Label>, corr: seq<seq<real>>, coef: real, f: Label)
    requires IsSquare(corr, |names|)
    ensures f in Features(PearsonRanking(names, corr, coef)) <==>
      exists a, b :: Covers(names, corr, coef, a, b, f)
  {
    var ps := SelectedPairs(names, corr, coef);
    ListedIffHeld(MaxDict(ps), f);
    RecordedIffCovered(names, corr, coef, f);
  }

  /** Every item of the sorted dictionary is an entry of `ps` with the
      largest value `ps` records for its feature. */
  lemma RankedEntry(ps: seq<Scored>, i: nat)
    requires i < |SortDesc(MaxDict(ps))|
    ensures SortDesc(MaxDict(ps))[i] in ps
    ensures forall q :: 0 <= q < |ps| && ps[q].feature == SortDesc(MaxDict(ps))[i].feature ==>
      ps[q].score <= SortDesc(MaxDict(ps))[i].score
  {
    SortedRecords(ps, MaxDict(ps), i);
  }

  lemma SortedRecords(ps: seq<Scored>, m: seq<Scored>, i: nat)
    requires FromRecords(ps, m) && Maximal(ps, m)
    requires i < |SortDesc(m)|
    ensures SortDesc(m)[i] in ps
    ensures forall q :: 0 <= q < |ps| && ps[q].feature == SortDesc(m)[i].feature ==>
      ps[q].score <= SortDesc(m)[i].score
  {
    var e := SortDesc(m)[i];
    assert e in multiset(m);
    var k :| 0 <= k < |m| && m[k] == e;
  }

  /** A listed column's value is the largest correlation among the pairs
      reaching the threshold that involve it. */
  lemma PearsonRankingValues(names: seq<Label>, corr: seq<seq<real>>, coef: real, i: nat)
    requires IsSquare(corr, |names|)
    requires i < |PearsonRanking(names, corr, coef)|
    ensures var e := PearsonRanking(names, corr, coef)[i];
      && (exists a, b :: Covers(names, corr, coef, a, b, e.feature) && corr[a][b] == e.score)
      && (forall a, b :: Covers(names, corr, coef, a, b, e.feature) ==> corr[a][b] <= e.score)
  {
    var ps := SelectedPairs(names, corr, coef);
    var e := PearsonRanking(names, corr, coef)[i];
    RankedEntry(ps, i);
    SelectedPairsSound(names, corr, coef, e);
    var a0, b0 :| Records(names, corr, coef, a0, b0, e);
    forall a, b | Covers(names, corr, coef, a, b, e.feature) ensures corr[a][b] <= e.score {
      CoveredRecorded(names, corr, coef, a, b, e.feature);
      var q :| 0 <= q < |ps| && ps[q] == Scored(e.feature, corr[a][b]);
    }
  }

  /** Columns of equal value are listed in the order in which the row-major
      scan first recorded them. */
  lemma PearsonRankingTies(names: seq<Label>, corr: seq<seq<real>>, coef: real, i: nat, j: nat)
    requires IsSquare(corr, |names|)
    requires i < j < |PearsonRanking(names, corr, coef)|
    requires PearsonRanking(names, corr, coef)[i].score == PearsonRanking(names, corr, coef)[j].score
    ensures var ps := SelectedPairs(names, corr, coef);
            var r := PearsonRanking(names, corr, coef);
            Find(ps, r[i].feature) < Find(ps, r[j].feature)
  {
    var ps := SelectedPairs(names, corr, coef);
    var m := MaxDict(ps);
    var r := PearsonRanking(names, corr, coef);
    SortDescKeepsTies(m, i, j);
    var a, b :| 0 <= a < b < |m| && m[a] == r[i] && m[b] == r[j];
  }

  lemma {:induction false} RowPairsNone(names: seq<Label>, corr: seq<seq<real>>, coef: real, a: nat, b: nat)
    requires IsSquare(corr, |names|) && a < b <= |names|
    requires forall b' :: b <= b' < |names| ==> corr[a][b'] < coef
    ensures RowPairs(names, corr, coef, a, b) == []
    decreases |names| - b
  {
    if b < |names| {
      RowPairsNone(names, corr, coef, a, b + 1);
    }
  }

  lemma {:induction false} ScanNone(names: seq<Label>, corr: seq<seq<real>>, coef: real, a: nat)
    requires IsSquare(corr, |names|) && a <= |names|
    requires forall a', b' :: a <= a' < b' < |names| ==> corr[a'][b'] < coef
    ensures ScanFrom(names, corr, coef, a) == []
    decreases |names| - a
  {
    if a < |names| {
      RowPairsNone(names, corr, coef, a, a + 1);
      ScanNone(names, corr, coef, a + 1);
    }
  }

  /** When the threshold exceeds every correlation between two distinct
      columns, nothing is listed; in particular with fewer than two
      columns. */
  lemma PearsonRankingEmpty(names: seq<Label>, corr: seq<seq<real>>, coef: real)
    requires IsSquare(corr, |names|)
    requires forall a, b :: 0 <= a < b < |names| ==> corr[a][b] < coef
    ensures PearsonRanking(names, corr, coef) == []
  {
    ScanNone(names, corr, coef, 0);
  }

  /** With a threshold of zero or less, every column of a matrix of absolute
      correlations takes part in some pair, so all of them are listed
      (when there are at least two). */
  lemma PearsonRankingAll(names: seq<Label>, corr: seq<seq<real>>, coef: real, f: Label)
    requires IsAbsCorrelation(corr, |names|) && |names| >= 2
    requires coef <= 0.0 && f in names
    ensures f in Features(PearsonRanking(names, corr, coef))
  {
    var k :| 0 <= k < |names| && names[k] == f;
    PearsonRankingMembers(names, corr, coef, f);
    if k == 0 {
      assert Covers(names, corr, coef, 0, 1, f);
    } else {
      assert Covers(names, corr, coef, 0, k, f);
    }
  }
}

=== FILE: ranking.dfy ===
/** Ranked results: (feature, score) pairs and the ordering Python's
    `sorted(items, key=lambda x: x[1], reverse=True)` gives them, which is
    by score from high to low and, being a stable sort, keeps entries with
    equal scores in the order they had before sorting. */
module Ranking {

  import opened ColumnKeys

  datatype Scored = Scored(feature: Label, score: real)

  /** Scores never increase from left to right. */
  predicate Sorted(s: seq<Scored>)
  {
    forall i, j :: 0 <= i < j < |s| ==> s[i].score >= s[j].score
  }

  function Features(s: seq<Scored>): (r: seq<Label>)
    ensures |r| == |s|
    ensures forall i :: 0 <= i < |s| ==> r[i] == s[i].feature
  {
    seq(|s|, i requires 0 <= i < |s| => s[i].feature)
  }

  /** No feature is listed twice. */
  predicate DistinctFeatures(s: seq<Scored>)
  {
    forall i, j :: 0 <= i < j < |s| ==> s[i].feature != s[j].feature
  }

  /** `a` occurs somewhere before `b` in `s`. */
  ghost predicate Precedes(s: seq<Scored>, a: Scored, b: Scored)
  {
    exists i, j :: 0 <= i < j < |s| && s[i] == a && s[j] == b
  }

  /** The entries of `s` whose score is `v`, in their order in `s`. */
  function WithScore(s: seq<Scored>, v: real): (r: seq<Scored>)
    ensures |r| <= |s|
    ensures forall x :: x in r <==> x in s && x.score == v
  {
    if |s| == 0 then []
    else (if s[0].score == v then [s[0]] else []) + WithScore(s[1..], v)
  }

  lemma WithScoreCons(x: Scored, s: seq<Scored>, v: real)
    ensures WithScore([x] + s, v) == (if x.score == v then [x] else []) + WithScore(s, v)
  {
    assert ([x] + s)[1..] == s;
  }

  /** Puts `x` in front of the first entry of `ys` whose score is not
      greater than its own. */
  function Insert(x: Scored, ys: seq<Scored>): (r: seq<Scored>)
    ensures |r| == |ys| + 1
    ensures multiset(r) == multiset(ys) + multiset{x}
  {
    if |ys| == 0 then [x]
    else if x.score >= ys[0].score then [x] + ys
    else
      assert ys == [ys[0]] + ys[1..];
      [ys[0]] + Insert(x, ys[1..])
  }

  lemma {:induction false} InsertSorted(x: Scored, ys: seq<Scored>)
    requires Sorted(ys)
    ensures Sorted(Insert(x, ys))
  {
    if |ys| > 0 && x.score < ys[0].score {
      var rest := Insert(x, ys[1..]);
      InsertSorted(x, ys[1..]);
      forall e | e in rest ensures e.score <= ys[0].score {
        assert e in multiset(rest);
        if e != x {
          assert e in ys[1..];
        }
      }
      assert Insert(x, ys) == [ys[0]] + rest;
    }
  }

  /** Inserting `x` puts it before every entry of equal score: among equal
      scores, `x` comes first, as it came first in the input. */
  lemma {:induction false} InsertStable(x: Scored, ys: seq<Scored>, v: real)
    ensures WithScore(Insert(x, ys), v) == WithScore([x] + ys, v)
  {
    if |ys| > 0 && x.score < ys[0].score {
      InsertStable(x, ys[1..], v);
      InsertStableStep(x, ys, v);
    } else {
      assert Insert(x, ys) == [x] + ys;
    }
  }

  /** The entries of score `v` among `[x]`, as a list of zero or one. */
  function OneWithScore(x: Scored, v: real): (r: seq<Scored>)
    ensures r == WithScore([x], v)
  {
    if x.score == v then [x] else []
  }

  /** The step of `InsertStable` where `x` moves past the first entry. */
  lemma InsertStableStep(x: Scored, ys: seq<Scored>, v: real)
    requires |ys| > 0 && x.score < ys[0].score
    requires WithScore(Insert(x, ys[1..]), v) == WithScore([x] + ys[1..], v)
    ensures WithScore(Insert(x, ys), v) == WithScore([x] + ys, v)
  {
    var xv := OneWithScore(x, v);
    var yv := OneWithScore(ys[0], v);
    var tail := WithScore(ys[1..], v);
    InsertedScores(x, ys, v);
    ConsScores(x, ys, v);
    // `ys[0]` scores higher than `x`, so at most one of them has score `v`.
    if x.score == v {
      assert yv == [];
      assert yv + (xv + tail) == xv + tail;
      assert yv + tail == tail;
    } else {
      assert xv == [];
      assert xv + (yv + tail) == yv + tail;
      assert xv + tail == tail;
    }
  }

  lemma InsertedScores(x: Scored, ys: seq<Scored>, v: real)
    requires |ys| > 0 && x.score < ys[0].score
    requires WithScore(Insert(x, ys[1..]), v) == WithScore([x] + ys[1..], v)
    ensures WithScore(Insert(x, ys), v) ==
      OneWithScore(ys[0], v) + (OneWithScore(x, v) + WithScore(ys[1..], v))
  {
    assert Insert(x, ys) == [ys[0]] + Insert(x, ys[1..]);
    WithScoreCons(ys[0], Insert(x, ys[1..]), v);
    WithScoreCons(x, ys[1..], v);
  }

  lemma ConsScores(x: Scored, ys: seq<Scored>, v: real)
    requires |ys| > 0
    ensures WithScore([x] + ys, v) ==
      OneWithScore(x, v) + (OneWithScore(ys[0], v) + WithScore(ys[1..], v))
  {
    WithScoreCons(x, ys, v);
    WithScoreCons(ys[0], ys[1..], v);
    assert [ys[0]] + ys[1..] == ys;
  }

  lemma {:induction false} InsertDistinct(x: Scored, ys: seq<Scored>)
    requires DistinctFeatures(ys)
    requires forall i :: 0 <= i < |ys| ==> ys[i].feature != x.feature
    ensures DistinctFeatures(Insert(x, ys))
  {
    if |ys| > 0 && x.score < ys[0].score {
      var rest := Insert(x, ys[1..]);
      InsertDistinct(x, ys[1..]);
      forall e | e in rest ensures e.feature != ys[0].feature {
        assert e in multiset(rest);
        if e != x {
          assert e in ys[1..];
        }
      }
      assert Insert(x, ys) == [ys[0]] + rest;
    } else if |ys| > 0 {
      assert Insert(x, ys) == [x] + ys;
    }
  }

  /** Python's stable `sorted(..., reverse=True)` on scores, as an insertion
      sort: the result is ordered by score from high to low, holds exactly
      the input's entries, and entries of equal score keep their input
      order. */
  function SortDesc(xs: seq<Scored>): (r: seq<Scored>)
    ensures Sorted(r)
    ensures multiset(r) == multiset(xs)
    ensures forall v :: WithScore(r, v) == WithScore(xs, v)
  {
    if |xs| == 0 then []
    else
      var rest := SortDesc(xs[1..]);
      InsertSorted(xs[0], rest);
      assert [xs[0]] + xs[1..] == xs;
      assert forall v :: WithScore(Insert(xs[0], rest), v) == WithScore(xs, v) by {
        forall v ensures WithScore(Insert(xs[0], rest), v) == WithScore(xs, v) {
          InsertStable(xs[0], rest, v);
          WithScoreCons(xs[0], rest, v);
          WithScoreCons(xs[0], xs[1..], v);
        }
      }
      Insert(xs[0], rest)
  }

  lemma {:induction false} SortDescDistinct(xs: seq<Scored>)
    requires DistinctFeatures(xs)
    ensures DistinctFeatures(SortDesc(xs))
  {
    if |xs| > 0 {
      var rest := SortDesc(xs[1..]);
      SortDescDistinct(xs[1..]);
      forall i | 0 <= i < |rest| ensures rest[i].feature != xs[0].feature {
        assert rest[i] in multiset(xs[1..]);
      }
      InsertDistinct(xs[0], rest);
    }
  }

  lemma PrecedesCons(y: Scored, t: seq<Scored>, a: Scored, b: Scored)
    ensures Precedes([y] + t, a, b) <==> (y == a && b in t) || Precedes(t, a, b)
  {
    var s := [y] + t;
    if Precedes(s, a, b) {
      var i, j :| 0 <= i < j < |s| && s[i] == a && s[j] == b;
      assert t[j - 1] == b;
      if i > 0 {
        assert t[i - 1] == a;
      }
    }
    if y == a && b in t {
      var j :| 0 <= j < |t| && t[j] == b;
      assert s[0] == a && s[j + 1] == b;
    }
    if Precedes(t, a, b) {
      var i, j :| 0 <= i < j < |t| && t[i] == a && t[j] == b;
      assert s[i + 1] == a && s[j + 1] == b;
    }
  }

  /** Two entries of one score appear in `s` in the same order as in the
      entries of `s` with that score. */
  lemma {:induction false} PrecedesWithScore(s: seq<Scored>, a: Scored, b: Scored)
    requires a.score == b.score
    ensures Precedes(s, a, b) <==> Precedes(WithScore(s, a.score), a, b)
  {
    var v := a.score;
    if |s| > 0 {
      var w' := WithScore(s[1..], v);
      PrecedesWithScore(s[1..], a, b);
      PrecedesCons(s[0], s[1..], a, b);
      assert [s[0]] + s[1..] == s;
      if s[0].score == v {
        assert WithScore(s, v) == [s[0]] + w';
        PrecedesCons(s[0], w', a, b);
      } else {
        assert WithScore(s, v) == w';
      }
    }
  }

  /** The tie order of `SortDesc`, stated on positions: two entries of
      equal score that the result lists in some order are listed in that
      order in the input too. */
  lemma SortDescKeepsTies(xs: seq<Scored>, i: nat, j: nat)
    requires i < j < |SortDesc(xs)|
    requires SortDesc(xs)[i].score == SortDesc(xs)[j].score
    ensures Precedes(xs, SortDesc(xs)[i], SortDesc(xs)[j])
  {
    var r := SortDesc(xs);
    assert Precedes(r, r[i], r[j]);
    PrecedesWithScore(r, r[i], r[j]);
    PrecedesWithScore(xs, r[i], r[j]);
  }
}

=== FILE: session.dfy ===
/** `DatasetApp` as a state machine. The session holds the loaded table with
    its optional target vector, and the three result caches (`fdr_results`,
    `pearson`, `cross_correlation`). Every user command is a function from
    the session and the user's answer to a dialog to a new session and a
    status saying what the application did: applied the command, ignored
    it (a cancelled dialog, or a command that returns silently when nothing
    is loaded), warned that nothing is loaded, or reported an error. Every
    command that does not change the session leaves it exactly as it was,
    with one exception the source shows: a load that fails has already
    wiped the session. Every command that does change it then redraws the
    tables (`display_dataframe`), and that redraw can itself fail after the
    change has been made. */
module Session {

  import opened Common
  import opened ColumnKeys
  import opened DataTable
  import opened Ranking
  import opened Fisher
  import opened Pearson
  import opened CrossCorrelation

  datatype Session = Session(
    data: Option<Dataset>,
    fdr: seq<Scored>,
    pearson: Option<seq<Scored>>,
    cross: Option<seq<real>>)

  /** What the application did with a command. `NotLoaded` is the warning
      dialog shown when a computation needs data that is not there;
      `CorrelationUndefined` is the error dialog shown when the correlation
      "matrix" is a scalar (see `ScalarCorrelation`), on which the source's
      matrix code fails. `DisplayFailed` is the error dialog shown when the change
      was made but redrawing the cross-correlation table failed, because
      the stored vector no longer has one entry per column. */
  datatype Status =
    | Applied
    | DisplayFailed
    | Ignored
    | NotLoaded
    | Rejected(error: EditError)
    | CorrelationUndefined
    | LoadError

  datatype Step = Step(session: Session, status: Status)

  /** The command changed the session, whether or not the redraw that
      follows succeeded. */
  predicate Changed(st: Status)
  {
    st == Applied || st == DisplayFailed
  }

  /** `display_dataframe` can draw the session: the cross-correlation table
      pairs each current column name with one stored value, and pandas
      refuses to build it when the two lengths differ. The FDR and Pearson
      tables are drawn from their own lists and never fail. */
  predicate Displayable(s: Session)
  {
    s.cross.Some? ==> s.data.Some? && |s.cross.value| == |s.data.value.table.columns|
  }

  /** The redraw that follows every change; its failure is caught by the
      command's own error handler, so the change stays made. */
  function Redisplay(s: Session): Step
  {
    Step(s, if Displayable(s) then Applied else DisplayFailed)
  }

  /** The outcome of the file and CSV-options dialogs and of parsing the
      file. Reading the file is outside the model: `Loaded` carries the
      table it produced. */
  datatype LoadInput = LoadCancelled | LoadFailed | Loaded(table: Table)

  /** The loaded data, if any, is consistent, and nothing has been computed
      while no data is loaded. */
  predicate ValidSession(s: Session)
  {
    && (s.data.Some? ==> Valid(s.data.value))
    && (s.data.None? ==> s.fdr == [] && s.pearson.None? && s.cross.None?)
  }

  /** `resetAll`, and equally the state `__init__` starts from. */
  function Reset(): (s: Session)
    ensures ValidSession(s)
    ensures s.data.None? && s.fdr == [] && s.pearson.None? && s.cross.None?
  {
    Session(None, [], None, None)
  }

  /** `load_csv`. The session is reset BEFORE the file is read, so a load
      that fails leaves an empty session rather than the previous one. A
      loaded table starts without targets and without results. */
  function Load(s: Session, input: LoadInput): (r: Step)
    requires input.Loaded? ==> ValidTable(input.table)
    ensures ValidSession(s) ==> ValidSession(r.session)
    ensures input.LoadCancelled? <==> r.status == Ignored
    ensures input.LoadFailed? <==> r.status == LoadError
    ensures input.Loaded? <==> r.status == Applied
    ensures r.status == Ignored ==> r.session == s
    ensures r.status == LoadError ==> r.session == Reset()
    ensures r.status == Applied ==>
      r.session == Reset().(data := Some(Dataset(input.table, None)))
    ensures r.status == Applied ==> Displayable(r.session)
  {
    match input
    case LoadCancelled => Step(s, Ignored)
    case LoadFailed => Step(Reset(), LoadError)
    case Loaded(t) => Step(Session(Some(Dataset(t, None)), [], None, None), Applied)
  }

  /** `select_target`: warns when nothing is loaded, ignores a cancelled or
      blank answer, rejects a key that names no column, and otherwise moves
      that column into the target vector. The result caches are left as
      they were. */
  function SelectTargetCmd(s: Session, input: Option<string>): (r: Step)
    requires ValidSession(s)
    ensures ValidSession(r.session)
    ensures !Changed(r.status) ==> r.session == s
    ensures r.status == NotLoaded <==> s.data.None?
    ensures r.status == Ignored <==> s.data.Some? && ResolveKey(input).None?
    ensures r.status.Rejected? <==>
      s.data.Some? && ResolveKey(input).Some? && ResolveKey(input).value !in Labels(s.data.value.table.columns)
    ensures r.status.Rejected? ==> r.status.error == UnknownColumn(ResolveKey(input).value)
    ensures Changed(r.status) <==>
      s.data.Some? && ResolveKey(input).Some? && ResolveKey(input).value in Labels(s.data.value.table.columns)
    ensures Changed(r.status) ==>
      && s.data.Some? && ResolveKey(input).Some?
      && SelectTarget(s.data.value, ResolveKey(input).value).Ok?
      && r.session == s.(data := Some(SelectTarget(s.data.value, ResolveKey(input).value).value))
    ensures r.status == DisplayFailed <==> Changed(r.status) && !Displayable(r.session)
  {
    if s.data.None? then Step(s, NotLoaded)
    else
      match ResolveKey(input)
      case None => Step(s, Ignored)
      case Some(k) =>
        match SelectTarget(s.data.value, k)
        case Err(e) => Step(s, Rejected(e))
        case Ok(d) => Redisplay(s.(data := Some(d)))
  }

  /** `drop_column`: returns silently when nothing is loaded or the answer
      is cancelled or blank, rejects a key that names no column, and
      otherwise removes that column. Targets and result caches are left as
      they were. */
  function DropColumnCmd(s: Session, input: Option<string>): (r: Step)
    requires ValidSession(s)
    ensures ValidSession(r.session)
    ensures !Changed(r.status) ==> r.session == s
    ensures r.status == Ignored <==> s.data.None? || ResolveKey(input).None?
    ensures r.status.Rejected? <==>
      s.data.Some? && ResolveKey(input).Some? && ResolveKey(input).value !in Labels(s.data.value.table.columns)
    ensures r.status.Rejected? ==> r.status.error == UnknownColumn(ResolveKey(input).value)
    ensures Changed(r.status) <==>
      s.data.Some? && ResolveKey(input).Some? && ResolveKey(input).value in Labels(s.data.value.table.columns)
    ensures Changed(r.status) ==>
      && s.data.Some? && ResolveKey(input).Some?
      && DropColumn(s.data.value, ResolveKey(input).value).Ok?
      && r.session == s.(data := Some(DropColumn(s.data.value, ResolveKey(input).value).value))
      && r.session.data.value.targets == s.data.value.targets
    ensures r.status == DisplayFailed <==> Changed(r.status) && !Displayable(r.session)
  {
    if s.data.None? then Step(s, Ignored)
    else
      match ResolveKey(input)
      case None => Step(s, Ignored)
      case Some(k) =>
        match DropColumn(s.data.value, k)
        case Err(e) => Step(s, Rejected(e))
        case Ok(d) => Redisplay(s.(data := Some(d)))
  }

  /** `drop_row`: returns silently when nothing is loaded or the dialog is
      cancelled, rejects an index outside the current rows, and otherwise
      removes that row from the table and from the targets. Result caches
      are left as they were. */
  function DropRowCmd(s: Session, index: Option<int>): (r: Step)
    requires ValidSession(s)
    ensures ValidSession(r.session)
    ensures !Changed(r.status) ==> r.session == s
    ensures r.status == Ignored <==> s.data.None? || index.None?
    ensures r.status.Rejected? <==>
      s.data.Some? && index.Some? && !(0 <= index.value < s.data.value.table.rows)
    ensures r.status.Rejected? ==> r.status.error == RowNotFound(index.value)
    ensures Changed(r.status) <==> s.data.Some? && index.Some? && 0 <= index.value < s.data.value.table.rows
    ensures Changed(r.status) ==>
      && s.data.Some? && index.Some?
      && r.session == s.(data := Some(DropRow(s.data.value, index.value).value))
      && r.session.data.value.table.rows == s.data.value.table.rows - 1
    ensures r.status == DisplayFailed <==> Changed(r.status) && !Displayable(r.session)
  {
    if s.data.None? || index.None? then Step(s, Ignored)
    else
      match DropRow(s.data.value, index.value)
      case Err(e) => Step(s, Rejected(e))
      case Ok(d) => Redisplay(s.(data := Some(d)))
  }

  /** `compute_fdr`: warns unless both a table and targets are present, and
      otherwise replaces the FDR ranking; nothing else changes. */
  function ComputeFdrCmd(s: Session): (r: Step)
    requires ValidSession(s)
    ensures ValidSession(r.session)
    ensures Changed(r.status) || r.status == NotLoaded
    ensures r.status == NotLoaded <==> s.data.None? || s.data.value.targets.None?
    ensures r.status == NotLoaded ==> r.session == s
    ensures Changed(r.status) ==>
      && s.data.Some? && s.data.value.targets.Some?
      && r.session == s.(fdr := FdrRanking(s.data.value))
    ensures r.status == DisplayFailed <==> Changed(r.status) && !Displayable(s)
  {
    if s.data.None? || s.data.value.targets.None? then Step(s, NotLoaded)
    else Redisplay(s.(fdr := FdrRanking(s.data.value)))
  }

  /** `np.corrcoef(df, rowvar=False)` returns a 0-dimensional scalar, not a
      matrix, for a table of one column, and equally for a table of one
      row, which `np.cov` (before numpy 2.2) does not transpose and so reads
      as a single variable. */
  predicate ScalarCorrelation(d: Dataset)
  {
    |d.table.columns| == 1 || d.table.rows == 1
  }

  /** `corr` stands for `np.abs(np.corrcoef(df, rowvar=False))` of the
      loaded table. */
  predicate CorrelationOf(s: Session, corr: seq<seq<real>>)
  {
    s.data.Some? ==> IsAbsCorrelation(corr, |s.data.value.table.columns|)
  }

  /** `compute_cross_correlation`: warns when nothing is loaded, reports an
      error when the correlation is a scalar (`np.fill_diagonal` rejects
      it), and otherwise replaces the cross-correlation vector; nothing
      else changes. */
  function ComputeCrossCmd(s: Session, corr: seq<seq<real>>): (r: Step)
    requires ValidSession(s) && CorrelationOf(s, corr)
    ensures ValidSession(r.session)
    ensures !Changed(r.status) ==> r.session == s
    ensures r.status == NotLoaded <==> s.data.None?
    ensures r.status == CorrelationUndefined <==> s.data.Some? && ScalarCorrelation(s.data.value)
    ensures r.status == Applied <==> s.data.Some? && !ScalarCorrelation(s.data.value)
    ensures r.status != DisplayFailed
    ensures r.status == Applied ==>
      && r.session == s.(cross := Some(CrossScores(corr, |s.data.value.table.columns|)))
      && Displayable(r.session)
  {
    if s.data.None? then Step(s, NotLoaded)
    else if ScalarCorrelation(s.data.value) then Step(s, CorrelationUndefined)
    else Redisplay(s.(cross := Some(CrossScores(corr, |s.data.value.table.columns|))))
  }

  /** `compute_pearson_coef`: warns when nothing is loaded, ignores a
      cancelled threshold dialog, reports an error when the correlation is
      a scalar (it has no `shape[0]`), and otherwise replaces the Pearson
      ranking; nothing else changes. */
  function ComputePearsonCmd(s: Session, coef: Option<real>, corr: seq<seq<real>>): (r: Step)
    requires ValidSession(s) && CorrelationOf(s, corr)
    ensures ValidSession(r.session)
    ensures !Changed(r.status) ==> r.session == s
    ensures r.status == NotLoaded <==> s.data.None?
    ensures r.status == Ignored <==> s.data.Some? && coef.None?
    ensures r.status == CorrelationUndefined <==>
      s.data.Some? && coef.Some? && ScalarCorrelation(s.data.value)
    ensures Changed(r.status) <==> s.data.Some? && coef.Some? && !ScalarCorrelation(s.data.value)
    ensures Changed(r.status) ==>
      && s.data.Some? && coef.Some? && !ScalarCorrelation(s.data.value)
      && r.session == s.(pearson := Some(PearsonRanking(Labels(s.data.value.table.columns), corr, coef.value)))
    ensures r.status == DisplayFailed <==> Changed(r.status) && !Displayable(s)
  {
    if s.data.None? then Step(s, NotLoaded)
    else if coef.None? then Step(s, Ignored)
    else if ScalarCorrelation(s.data.value) then Step(s, CorrelationUndefined)
    else
      var cols := s.data.value.table.columns;
      Redisplay(s.(pearson := Some(PearsonRanking(Labels(cols), corr, coef.value))))
  }

  /** After a reset every command either warns or is ignored, and the
      session stays empty: nothing survives a reset. */
  lemma ResetIsInert(input: Option<string>, index: Option<int>, coef: Option<real>, corr: seq<seq<real>>)
    ensures SelectTargetCmd(Reset(), input) == Step(Reset(), NotLoaded)
    ensures DropColumnCmd(Reset(), input) == Step(Reset(), Ignored)
    ensures DropRowCmd(Reset(), index) == Step(Reset(), Ignored)
    ensures ComputeFdrCmd(Reset()) == Step(Reset(), NotLoaded)
    ensures ComputeCrossCmd(Reset(), corr) == Step(Reset(), NotLoaded)
    ensures ComputePearsonCmd(Reset(), coef, corr) == Step(Reset(), NotLoaded)
  {
  }

  /** A column edit leaves a computed cross-correlation vector one entry
      longer than the table: the edit is made, but its redraw fails. */
  lemma StaleCrossAfterColumnEdit(s: Session, input: Option<string>)
    requires ValidSession(s) && Displayable(s) && s.cross.Some?
    ensures Changed(SelectTargetCmd(s, input).status) ==> SelectTargetCmd(s, input).status == DisplayFailed
    ensures Changed(DropColumnCmd(s, input).status) ==> DropColumnCmd(s, input).status == DisplayFailed
  {
  }

  /** Once the stored vector is stale, every row drop and every FDR or
      Pearson computation is made and then fails to redraw, until the
      cross-correlation is computed again or the session is reset. */
  lemma StaleCrossPersists(s: Session, index: Option<int>, coef: Option<real>, corr: seq<seq<real>>)
    requires ValidSession(s) && !Displayable(s) && CorrelationOf(s, corr)
    ensures Changed(DropRowCmd(s, index).status) ==> DropRowCmd(s, index).status == DisplayFailed
    ensures Changed(ComputeFdrCmd(s).status) ==> ComputeFdrCmd(s).status == DisplayFailed
    ensures Changed(ComputePearsonCmd(s, coef, corr).status) ==> ComputePearsonCmd(s, coef, corr).status == DisplayFailed
    ensures Displayable(Reset())
    ensures ComputeCrossCmd(s, corr).status == Applied ==> Displayable(ComputeCrossCmd(s, corr).session)
  {
  }

  /** In a table whose columns all carry header names (one read with a
      header row, whatever has been done to it since), typing a number,
      with any whitespace around it, is rejected and nothing changes, even
      if a header is that number written out. */
  lemma NumericKeyOnHeaderTable(s: Session, pre: string, n: int, post: string)
    requires ValidSession(s) && s.data.Some? && NamedOnly(s.data.value.table.columns)
    requires AllIntSpace(pre) && AllIntSpace(post)
    ensures SelectTargetCmd(s, Some(pre + ShowInt(n) + post)) == Step(s, Rejected(UnknownColumn(Int(n))))
    ensures DropColumnCmd(s, Some(pre + ShowInt(n) + post)) == Step(s, Rejected(UnknownColumn(Int(n))))
  {
    ResolvePaddedInt(pre, n, post);
    HeaderRejectsIntegerKeys(s.data.value, n);
  }

  /** Where a column is labelled by the number `n` (a table read without a
      header row, whose labels are column positions), typing `n` with any
      whitespace around it selects that column as the target vector, or
      drops exactly that column. */
  lemma NumericKeySelectsColumn(s: Session, pre: string, n: int, post: string)
    requires ValidSession(s) && s.data.Some? && Int(n) in Labels(s.data.value.table.columns)
    requires AllIntSpace(pre) && AllIntSpace(post)
    ensures var cols := s.data.value.table.columns;
            var r := SelectTargetCmd(s, Some(pre + ShowInt(n) + post));
            && Changed(r.status)
            && r.session.data.value.targets == Some(cols[PositionOf(cols, Int(n))].data)
    ensures var cols := s.data.value.table.columns;
            var r := DropColumnCmd(s, Some(pre + ShowInt(n) + post));
            && Changed(r.status)
            && r.session.data.value.table.columns == RemoveAt(cols, PositionOf(cols, Int(n)))
  {
    ResolvePaddedInt(pre, n, post);
  }
}

=== FILE: table.dfy ===
/** The table-editing model behind `DatasetApp.select_target`,
    `DatasetApp.drop_column` and `DatasetApp.drop_row`: a table of labelled
    numeric columns of equal length, together with an optional target
    (class label) vector of the same length. Row labels are always the
    positions 0 .. rows-1, because the source resets the row index after
    every row drop, so a row is named by its position. */
module DataTable {

  import opened Common
  import opened ColumnKeys

  datatype Column = Column(key: Label, data: seq<real>)

  /** `rows` is kept apart from the columns: a table whose columns have all
      been dropped still has its rows (pandas keeps the row index). */
  datatype Table = Table(rows: nat, columns: seq<Column>)

  /** The loaded data frame and, once one has been chosen, the target
      vector taken out of it. */
  datatype Dataset = Dataset(table: Table, targets: Option<seq<real>>)

  datatype EditError = UnknownColumn(key: Label) | RowNotFound(index: int)

  datatype Result<T> = Ok(value: T) | Err(error: EditError)

  function Labels(cols: seq<Column>): (r: seq<Label>)
    ensures |r| == |cols|
    ensures forall i :: 0 <= i < |cols| ==> r[i] == cols[i].key
  {
    seq(|cols|, i requires 0 <= i < |cols| => cols[i].key)
  }

  predicate DistinctLabels(cols: seq<Column>)
  {
    forall i, j :: 0 <= i < j < |cols| ==> cols[i].key != cols[j].key
  }

  /** Column labels are unique (pandas renames repeated header names) and
      every column holds one value per row. */
  predicate ValidTable(t: Table)
  {
    && DistinctLabels(t.columns)
    && forall i :: 0 <= i < |t.columns| ==> |t.columns[i].data| == t.rows
  }

  /** The target vector, when present, has one entry per row. */
  predicate Valid(d: Dataset)
  {
    && ValidTable(d.table)
    && (d.targets.Some? ==> |d.targets.value| == d.table.rows)
  }

  /** The position of the column labelled `k`, or `|cols|` when no column
      carries that label. */
  function PositionOf(cols: seq<Column>, k: Label): (p: nat)
    ensures p <= |cols|
    ensures p < |cols| ==> cols[p].key == k
    ensures forall i :: 0 <= i < p ==> cols[i].key != k
  {
    if |cols| == 0 then 0
    else if cols[0].key == k then 0
    else
      var p := PositionOf(cols[1..], k);
      1 + p
  }

  /** `PositionOf` finds a column exactly when some column carries the
      label. */
  lemma {:induction false} PositionOfFound(cols: seq<Column>, k: Label)
    ensures PositionOf(cols, k) < |cols| <==> k in Labels(cols)
  {
    if k in Labels(cols) {
      var i :| 0 <= i < |cols| && Labels(cols)[i] == k;
      assert cols[i].key == k;
    }
  }

  /** Under unique labels, the column labelled `k` sits at `PositionOf` and
      nowhere else. */
  lemma PositionOfUnique(cols: seq<Column>, k: Label, i: nat)
    requires DistinctLabels(cols)
    requires i < |cols| && cols[i].key == k
    ensures PositionOf(cols, k) == i
  {
  }

  lemma {:induction false} LabelsRemoveAt(cols: seq<Column>, p: nat)
    requires p < |cols|
    ensures Labels(RemoveAt(cols, p)) == RemoveAt(Labels(cols), p)
  {
  }

  /** Removing a column from a valid table leaves a valid table. */
  lemma RemoveColumnValid(t: Table, p: nat)
    requires ValidTable(t) && p < |t.columns|
    ensures ValidTable(Table(t.rows, RemoveAt(t.columns, p)))
  {
    var r := RemoveAt(t.columns, p);
    forall i, j | 0 <= i < j < |r| ensures r[i].key != r[j].key {
      var i' := if i < p then i else i + 1;
      var j' := if j < p then j else j + 1;
      assert r[i] == t.columns[i'] && r[j] == t.columns[j'];
    }
  }

  /** `select_target`: the column labelled `k` becomes the target vector,
      replacing any previous one, and leaves the table; the other columns
      keep their labels, data and order and the row count is unchanged. An
      unknown key is an error. */
  function SelectTarget(d: Dataset, k: Label): (r: Result<Dataset>)
    requires Valid(d)
    ensures r.Err? <==> k !in Labels(d.table.columns)
    ensures r.Err? ==> r.error == UnknownColumn(k)
    ensures r.Ok? ==>
      var p := PositionOf(d.table.columns, k);
      && Valid(r.value)
      && r.value.targets == Some(d.table.columns[p].data)
      && r.value.table.rows == d.table.rows
      && r.value.table.columns == RemoveAt(d.table.columns, p)
      && Labels(r.value.table.columns) == RemoveAt(Labels(d.table.columns), p)
      && k !in Labels(r.value.table.columns)
  {
    var p := PositionOf(d.table.columns, k);
    if p == |d.table.columns| then Err(UnknownColumn(k))
    else
      var t := Table(d.table.rows, RemoveAt(d.table.columns, p));
      RemoveColumnValid(d.table, p);
      LabelsRemoveAt(d.table.columns, p);
      Ok(Dataset(t, Some(d.table.columns[p].data)))
  }

  /** `drop_column`: exactly the column labelled `k` disappears; the others
      keep their labels (integer labels are not renumbered), data and order,
      and the target vector is untouched. An unknown key is an error. */
  function DropColumn(d: Dataset, k: Label): (r: Result<Dataset>)
    requires Valid(d)
    ensures r.Err? <==> k !in Labels(d.table.columns)
    ensures r.Err? ==> r.error == UnknownColumn(k)
    ensures r.Ok? ==>
      var p := PositionOf(d.table.columns, k);
      && Valid(r.value)
      && r.value.targets == d.targets
      && r.value.table.rows == d.table.rows
      && r.value.table.columns == RemoveAt(d.table.columns, p)
      && Labels(r.value.table.columns) == RemoveAt(Labels(d.table.columns), p)
      && k !in Labels(r.value.table.columns)
  {
    var p := PositionOf(d.table.columns, k);
    if p == |d.table.columns| then Err(UnknownColumn(k))
    else
      RemoveColumnValid(d.table, p);
      LabelsRemoveAt(d.table.columns, p);
      Ok(Dataset(Table(d.table.rows, RemoveAt(d.table.columns, p)), d.targets))
  }

  /** A label found after removing the column at `p` was there before. */
  lemma RemoveAtFindsOld(cols: seq<Column>, p: nat, k': Label)
    requires p < |cols| && DistinctLabels(cols)
    requires PositionOf(RemoveAt(cols, p), k') < |cols| - 1
    ensures PositionOf(cols, k') < |cols|
  {
    var r := RemoveAt(cols, p);
    var i := PositionOf(r, k');
    if i < p {
      assert cols[i] == r[i];
      PositionOfUnique(cols, k', i);
    } else {
      assert cols[i + 1] == r[i];
      PositionOfUnique(cols, k', i + 1);
    }
  }

  /** Removing the column at `p` leaves every other label where
      `PositionOf` finds it, with the same column. */
  lemma RemoveAtKeepsOthers(cols: seq<Column>, p: nat, k': Label)
    requires p < |cols| && cols[p].key != k'
    requires DistinctLabels(cols) && DistinctLabels(RemoveAt(cols, p))
    requires PositionOf(cols, k') < |cols|
    ensures PositionOf(RemoveAt(cols, p), k') < |cols| - 1
    ensures RemoveAt(cols, p)[PositionOf(RemoveAt(cols, p), k')] == cols[PositionOf(cols, k')]
  {
    var r := RemoveAt(cols, p);
    var q := PositionOf(cols, k');
    if q < p {
      assert r[q] == cols[q];
      PositionOfUnique(r, k', q);
    } else {
      assert r[q - 1] == cols[q];
      PositionOfUnique(r, k', q - 1);
    }
  }

  /** Any column other than the dropped one is still found under the same
      label with the same data: labels are never renumbered. */
  lemma DropColumnKeepsOthers(d: Dataset, k: Label, k': Label)
    requires Valid(d) && DropColumn(d, k).Ok? && k' != k
    ensures var cols := d.table.columns;
            var cols' := DropColumn(d, k).value.table.columns;
            && (k' in Labels(cols') <==> k' in Labels(cols))
            && (k' in Labels(cols) ==> cols'[PositionOf(cols', k')] == cols[PositionOf(cols, k')])
  {
    var p := PositionOf(d.table.columns, k);
    var cols := d.table.columns;
    RemoveColumnValid(d.table, p);
    if PositionOf(RemoveAt(cols, p), k') < |cols| - 1 {
      RemoveAtFindsOld(cols, p, k');
    }
    if PositionOf(cols, k') < |cols| {
      RemoveAtKeepsOthers(cols, p, k');
    }
  }

  /** Row `i` of every column, in column order. */
  function Row(t: Table, i: nat): (r: seq<real>)
    requires ValidTable(t) && i < t.rows
    ensures |r| == |t.columns|
  {
    seq(|t.columns|, c requires 0 <= c < |t.columns| => t.columns[c].data[i])
  }

  /** `drop_row` followed by `reset_index`: row `i` leaves every column and
      the target vector; all lengths stay equal, now `rows - 1`. An index
      outside `[0, rows)`, negative ones included, is an error. */
  function DropRow(d: Dataset, i: int): (r: Result<Dataset>)
    requires Valid(d)
    ensures r.Err? <==> !(0 <= i < d.table.rows)
    ensures r.Err? ==> r.error == RowNotFound(i)
    ensures r.Ok? ==>
      && Valid(r.value)
      && r.value.table.rows == d.table.rows - 1
      && Labels(r.value.table.columns) == Labels(d.table.columns)
      && (forall c :: 0 <= c < |d.table.columns| ==>
            r.value.table.columns[c].data == RemoveAt(d.table.columns[c].data, i))
      && (d.targets.None? ==> r.value.targets.None?)
      && (d.targets.Some? ==> r.value.targets == Some(RemoveAt(d.targets.value, i)))
  {
    if !(0 <= i < d.table.rows) then Err(RowNotFound(i))
    else
      var cols := d.table.columns;
      var cols' := seq(|cols|, c requires 0 <= c < |cols| => Column(cols[c].key, RemoveAt(cols[c].data, i)));
      var targets' := match d.targets
        case None => None
        case Some(ts) => Some(RemoveAt(ts, i));
      Ok(Dataset(Table(d.table.rows - 1, cols'), targets'))
  }

  /** After a row drop the rows are renumbered from 0 with their order
      kept: rows before `i` keep their number, the ones after it move up by
      one, and so do their targets. */
  lemma DropRowRenumbers(d: Dataset, i: int, j: nat)
    requires Valid(d) && DropRow(d, i).Ok? && j < d.table.rows - 1
    ensures var d' := DropRow(d, i).value;
            var src := if j < i then j else j + 1;
            && Row(d'.table, j) == Row(d.table, src)
            && (d.targets.Some? ==> d'.targets.value[j] == d.targets.value[src])
  {
    var d' := DropRow(d, i).value;
    var src := if j < i then j else j + 1;
    forall c | 0 <= c < |d.table.columns|
      ensures d'.table.columns[c].data[j] == d.table.columns[c].data[src]
    {
    }
  }

  /** A table read without a header row: column `k` is labelled `Int(k)`. */
  function Headerless(rows: nat, data: seq<seq<real>>): (t: Table)
    requires forall k :: 0 <= k < |data| ==> |data[k]| == rows
    ensures ValidTable(t)
    ensures Labels(t.columns) == seq(|data|, k => Int(k))
  {
    Table(rows, seq(|data|, k requires 0 <= k < |data| => Column(Int(k), data[k])))
  }

  /** A table read with a header row: column `k` is labelled by its
      header name. */
  function WithHeader(rows: nat, names: seq<string>, data: seq<seq<real>>): (t: Table)
    requires |names| == |data|
    requires forall k :: 0 <= k < |data| ==> |data[k]| == rows
    requires forall i, j :: 0 <= i < j < |names| ==> names[i] != names[j]
    ensures ValidTable(t)
    ensures NamedOnly(t.columns)
    ensures Labels(t.columns) == seq(|data|, k requires 0 <= k < |names| => Name(names[k]))
  {
    Table(rows, seq(|data|, k requires 0 <= k < |data| => Column(Name(names[k]), data[k])))
  }

  /** Every column carries a header name: the labels of a table read with a
      header row. */
  predicate NamedOnly(cols: seq<Column>)
  {
    forall i :: 0 <= i < |cols| ==> cols[i].key.Name?
  }

  /** Selecting a target and dropping columns or rows never introduce an
      integer label, so a table read with a header row keeps only header
      names whatever is done to it. */
  lemma EditsKeepNamedOnly(d: Dataset, k: Label, i: int)
    requires Valid(d) && NamedOnly(d.table.columns)
    ensures SelectTarget(d, k).Ok? ==> NamedOnly(SelectTarget(d, k).value.table.columns)
    ensures DropColumn(d, k).Ok? ==> NamedOnly(DropColumn(d, k).value.table.columns)
    ensures DropRow(d, i).Ok? ==> NamedOnly(DropRow(d, i).value.table.columns)
  {
    if DropRow(d, i).Ok? {
      var cols' := DropRow(d, i).value.table.columns;
      assert Labels(cols') == Labels(d.table.columns);
    }
  }

  /** In a table whose columns all carry header names, typing a number
      never selects a column, even one whose header is that number written
      out: `Int(5)` never matches `Name("5")`. */
  lemma HeaderRejectsIntegerKeys(d: Dataset, n: int)
    requires Valid(d) && NamedOnly(d.table.columns)
    ensures SelectTarget(d, Int(n)) == Err(UnknownColumn(Int(n)))
    ensures DropColumn(d, Int(n)) == Err(UnknownColumn(Int(n)))
  {
  }
}
